=== FILE: README.md ===
# Animal product scanner — a Dafny model of its analysis core

The app photographs an object and asks a vision model which parts of it
come from animals. This project models the logic the app wraps around those
calls and proves properties of it:

- **Gemini client** (`GeminiClient.cs`):
  - the pre-flight checks on the API key and model id;
  - prompt assembly: the custom prompt or its override, plus the note that
    lists the materials already cached;
  - escaping the prompt into the JSON payload;
  - pulling the application JSON out of the response envelope;
  - making a missing item array an empty one;
  - the case-insensitive material cache and the reconciliation pass, which
    fills or records production summaries;
  - the error texts for HTTP failures;
  - the `PredictionResult` accessors.
- **Camera manager** (`CameraManager.cs`):
  - the usage-limit classifier for error texts;
  - the prompt override built from the user's context;
  - routing an error to the usage-limit view or the initial panel;
  - the image parked while the user types context, with confirm and cancel;
  - result pagination;
  - the colour of the confidence label.
- **OpenAI controller** (`OpenAIController.cs`):
  - the guard on the image bytes;
  - the shape of the Responses API request;
  - the two loops that pull `output_text` out of the response;
  - the fall-back to the raw response text.

Modules, one per file:

| module | file | contents |
|---|---|---|
| `Wrappers` | wrappers.dfy | `Option`, `Result` |
| `Bytes` | bytes.dfy | the `byte` type |
| `Text` | text.dfy | .NET string tests, an ASCII model of `ToLower`, ordinal `Contains`, `string.Join`, decimal rendering |
| `JsonEscape` | json_escape.dfy | the escaping as written, a corrected escaper, and a JSON string unescaper (section 7 of RFC 8259) |
| `MaterialCache` | material_cache.dfy | cache lookup and insertion, and the cache invariant |
| `GeminiModel` | gemini_model.dfy | result records and envelope records |
| `Reconciliation` | reconcile.dfy | the pass over the items |
| `GeminiClient` | gemini_client.dfy | pre-flight, prompt, request, envelope, parsing, the whole `AnalyzeImage` flow |
| `CameraManager` | camera_manager.dfy | classifier, override, routing, pending image, confidence colour |
| `Pagination` | pagination.dfy | the pager as written and a corrected pager |
| `OpenAIController` | openai_controller.dfy | request, guard, extraction, fall-back |
| `Scenarios` | scenarios.dfy | end-to-end lemmas: a rate-limited run, a missing model id, small reconciliation examples |

Modelling conventions:

- A C# `null` is `None`.
- A thrown exception is an error value, with the message the source builds.
- `JsonUtility.FromJson` is a function parameter. In the Gemini client it
  returns the object, null, or the message of the exception it threw. In the
  OpenAI controller `None` stands for a decode that threw; a null root ends
  in the same fall-back, through the dereference of its `output`.
- The network outcome is a parameter.
- Saving the cache is counted, not performed.
- `float` fields are `real`. The code does no arithmetic on them.

Behaviour of the code worth noting:

- `TotalEstimatedAnimalCount` is 0 when there is no summary block. The
  item counts are not added up.
- The classifier looks for `"429"` in the original text, not in the
  lower-cased text. `CameraManager.UsageLimitIgnoresCase` shows the two
  tests agree.
- A short API key only triggers a warning in `ValidateApiKey`. It does not
  stop the request.
- `"RESOURCE_EXHAUSTED"`, with an underscore, does not match the
  `"resource exhausted"` signal.

## Model

| member | source | states |
|---|---|---|
| MaterialCache.FirstMatch | Assets/Scripts/Gemini/GeminiClient.cs:159-164 | the index found is the first entry whose name equals the key ignoring case; none is found exactly when no entry has the name |
| MaterialCache.GetCachedSummary | Assets/Scripts/Gemini/GeminiClient.cs:159-164 | nothing for an unloaded cache or empty name; otherwise a summary exactly when some entry has the name ignoring case, and then it is the first such entry's summary |
| MaterialCache.AddToCache | Assets/Scripts/Gemini/GeminiClient.cs:166-176 | unloaded cache, empty name or summary, or a name already present (ignoring case) leave the cache unchanged and unsaved; otherwise exactly one entry is appended and the cache is saved |
| MaterialCache.AddToCacheKeepsWellFormed | Assets/Scripts/Gemini/GeminiClient.cs:166-176 | insertion keeps the invariant: no two cached names equal ignoring case, and no empty name or summary |
| MaterialCache.LookupStableUnderAppend | Assets/Scripts/Gemini/GeminiClient.cs:159-176 | a name already cached looks up to the same summary however many entries are appended later |
| MaterialCache.LookupAfterAdd | Assets/Scripts/Gemini/GeminiClient.cs:159-176 | lookup after insertion: a new name yields the inserted summary, an existing one its old summary, and every other name is unaffected |
| MaterialCache.AddLeatherTwice | Assets/Scripts/Gemini/GeminiClient.cs:166-176 | "Leather" then "leather" leaves one entry and one save |
| GeminiModel.PredictionResult.TotalItems | Assets/Scripts/Gemini/GeminiClient.cs:58 | the summary block's item count when there is one; otherwise the length of the item array, zero without one, so positive exactly when the result contains animal products |
| GeminiModel.SummaryOverridesItems | Assets/Scripts/Gemini/GeminiClient.cs:58-59 | with a summary block both totals come from it alone, whatever the item array holds |
| GeminiModel.AnimalTotalIgnoresItems | Assets/Scripts/Gemini/GeminiClient.cs:59 | the animal total never depends on the items and is zero without a summary block |
| GeminiModel.AnimalProductsIffItemsCounted | Assets/Scripts/Gemini/GeminiClient.cs:57-58 | a result contains animal products exactly when, ignoring its summary block, it counts at least one item |
| Reconciliation.ReconcileItem | Assets/Scripts/Gemini/GeminiClient.cs:444-474 | an item with an empty summary is filled exactly when the cache holds a non-empty summary for its material, and with that summary; an item bringing a summary for a material missing from a loaded cache is saved by appending it; nothing else about the item or cache changes |
| Reconciliation.Reconcile | Assets/Scripts/Gemini/GeminiClient.cs:440-476 | item count preserved, each item changes at most by having an empty summary filled; a loaded cache only grows, one save per new entry, and keeps its invariant |
| Reconciliation.ReconcileItemKeepsWellFormed | Assets/Scripts/Gemini/GeminiClient.cs:444-474 | one step keeps the cache invariant |
| Reconciliation.ReconcileAt | Assets/Scripts/Gemini/GeminiClient.cs:444-474 | a single forward pass: item i is reconciled against the cache left by the items before it only |
| Reconciliation.ReconcileFillsAt | Assets/Scripts/Gemini/GeminiClient.cs:449-458 | an item with an empty summary is changed by the pass exactly when the cache left by the items before it holds a non-empty summary for its material, and is then filled with it |
| Reconciliation.ReconcileRecordsAt | Assets/Scripts/Gemini/GeminiClient.cs:461-470 | an item bringing a summary for a material the cache left by the items before it lacks ends up cached: after the pass the material looks up to its summary |
| Reconciliation.ReconcileSplit | Assets/Scripts/Gemini/GeminiClient.cs:444-474 | the final cache is the pass over the items before i, then item i, then the rest |
| Reconciliation.ReconcileNeverOverwrites | Assets/Scripts/Gemini/GeminiClient.cs:465-470 | first writer wins: a name cached before the pass looks up to the same summary after it |
| Reconciliation.HasNameExtends | Assets/Scripts/Gemini/GeminiClient.cs:159-176 | a name present in a cache is present in every extension of it |
| Reconciliation.ReconcileCovers | Assets/Scripts/Gemini/GeminiClient.cs:461-470 | after the pass every item that supplies a material and a summary has a cache entry for the material |
| Reconciliation.ReconcileCoveredNoWrites | Assets/Scripts/Gemini/GeminiClient.cs:461-470 | a pass over items the cache already covers leaves it unchanged and saves nothing |
| Reconciliation.ReconcileTwiceSavesOnce | Assets/Scripts/Gemini/GeminiClient.cs:440-476 | repeating the pass over the same items neither grows nor saves the cache |
| GeminiClient.ValidateApiKey | Assets/Scripts/Gemini/GeminiClient.cs:181-200 | reports an unset key exactly when the key is null, empty or the placeholder, and a short key exactly when a set key is below the minimum length |
| GeminiClient.PreFlight | Assets/Scripts/Gemini/GeminiClient.cs:254-276 | the flow may proceed exactly when the key is set and the model id is non-empty; the key is checked first, each with its own message |
| GeminiClient.PromptText | Assets/Scripts/Gemini/GeminiClient.cs:286-292 | the prompt begins with the custom prompt or the override, gains a note exactly when the cache is loaded and non-empty, and then mentions every cached material; the note is the fixed lead-in, the cached names joined by ", ", and the fixed closing text |
| GeminiClient.NoteForOneEntry | Assets/Scripts/Gemini/GeminiClient.cs:288-292 | with one cached material the note names exactly that material between the fixed lead-in and closing text |
| GeminiClient.NoteAppendsEntry | Assets/Scripts/Gemini/GeminiClient.cs:288-292 | the names appear in cache order: appending an entry to a non-empty cache inserts ", " and its name just before the note's closing text |
| GeminiClient.NoteListsMaterials | Assets/Scripts/Gemini/GeminiClient.cs:290-291 | the appended note contains every cached material name |
| GeminiClient.BuildRequest | Assets/Scripts/Gemini/GeminiClient.cs:254-341 | no request when pre-flight fails, with its message; otherwise the prompt is escaped by the three replacements of line 295, has no raw line breaks, and on prompts without backslashes or other control characters reads back, as a JSON string, as the prompt minus carriage returns; the image is sent as JPEG |
| GeminiClient.ExtractInnerJson | Assets/Scripts/Gemini/GeminiClient.cs:385-419 | succeeds exactly when the first part of the first candidate has non-empty text, and returns that text; otherwise the error names the first check that fails, in the source's order: null envelope, no candidates, null first candidate, no content, no parts, null first part, empty text |
| GeminiClient.InnerJsonOf | Assets/Scripts/Gemini/GeminiClient.cs:384-419 | the application JSON exactly when the decoded envelope has non-empty text in the first part of its first candidate; otherwise the message of the exception thrown: the decoder's own, the null-response text, or the envelope check that failed |
| GeminiClient.ExtractWrap | Assets/Scripts/Gemini/GeminiClient.cs:398-419 | round trip: wrapping text in an envelope and extracting gives it back (empty text is an error); later candidates and parts are never read |
| GeminiClient.ParseResponse | Assets/Scripts/Gemini/GeminiClient.cs:381-499 | succeeds exactly when the envelope yields text that decodes to an object; each exception becomes "Parse Error: " around its own message, a null inner result around the inner-JSON message; a missing item array becomes an empty one and leaves the cache alone; otherwise items and cache are those of the reconciliation pass |
| GeminiClient.ParsedKeepsWellFormed | Assets/Scripts/Gemini/GeminiClient.cs:440-476 | parsing keeps the cache invariant |
| GeminiClient.AnalyzeImage | Assets/Scripts/Gemini/GeminiClient.cs:254-523 | no request exactly when pre-flight fails; an HTTP failure reports the API error text; a successful response delivers exactly what parsing yields, result or error message; any error leaves the cache untouched |
| GeminiClient.Deliver | Assets/Scripts/Gemini/GeminiClient.cs:336-523 | after sending: HTTP failure gives the API error text; success gives the parsed result with the reconciled cache, or the parse error; a loaded cache only grows, keeping its invariant |
| GeminiClient.AnalyzeImageGrowsCache | Assets/Scripts/Gemini/GeminiClient.cs:254-523 | a whole run only appends to a loaded cache, one save per appended entry, and keeps the invariant |
| GeminiClient.PreFlightStopsRequest | Assets/Scripts/Gemini/GeminiClient.cs:256-276 | an unset key or model id ends the run with the pre-flight message and no request, whatever the server would answer |
| JsonEscape.EscapeAsWritten | Assets/Scripts/Gemini/GeminiClient.cs:295 | the escaped text holds no raw line feed or carriage return |
| JsonEscape.Escape | Assets/Scripts/Gemini/GeminiClient.cs:295 | the corrected escaper also produces no raw line breaks |
| JsonEscape.UnescapeEscape | Assets/Scripts/Gemini/GeminiClient.cs:295 | round trip: reading the escaped prompt as a JSON string gives back the prompt minus carriage returns |
| JsonEscape.EscapeAsWrittenAgrees | Assets/Scripts/Gemini/GeminiClient.cs:295 | on text without backslashes or control characters other than line breaks, the escaping as written equals the corrected one |
| JsonEscape.EscapeAsWrittenRoundTrip | Assets/Scripts/Gemini/GeminiClient.cs:295 | on prompts without backslashes or control characters other than line breaks, the escaping as written reads back as the prompt minus carriage returns |
| JsonEscape.EscapeAsWrittenBreaksOnBackslash | Assets/Scripts/Gemini/GeminiClient.cs:295 | a lone backslash passes through unescaped and no longer reads as a JSON string; the corrected escaper round-trips it |
| CameraManager.IsUsageLimitError | Assets/Scripts/Gemini/CameraManager.cs:92-106 | false for a null or empty text; otherwise true exactly when the lower-cased text contains "usage limit", "quota", "rate limit", "resource exhausted" or "429", or "exceeded" together with "billing" ("exceeded" with "quota" adds nothing, as "quota" alone suffices) |
| CameraManager.UsageLimitIgnoresCase | Assets/Scripts/Gemini/CameraManager.cs:92-106 | the classifier gives the same answer on a text and its lower-cased form |
| CameraManager.QuotaMessageIsUsageLimit | Assets/Scripts/Gemini/CameraManager.cs:99-105 | a quota message is a usage limit |
| CameraManager.TooManyRequestsIsUsageLimit | Assets/Scripts/Gemini/CameraManager.cs:99-105 | a "429 Too Many Requests" text is a usage limit |
| CameraManager.NoSignalNoUsageLimit | Assets/Scripts/Gemini/CameraManager.cs:92-106 | a non-empty text whose lower-cased form contains none of the five phrases nor "billing" is not a usage limit |
| CameraManager.InvalidKeyIsNotUsageLimit | Assets/Scripts/Gemini/CameraManager.cs:92-106 | "Invalid API key" is not a usage limit |
| CameraManager.UnknownErrorIsNotUsageLimit | Assets/Scripts/Gemini/CameraManager.cs:92-106 | "Unknown error" is not a usage limit |
| CameraManager.NotUsageLimitLacking | Assets/Scripts/Gemini/CameraManager.cs:92-106 | a text missing, in either case, a letter that each signal needs is not a usage limit |
| CameraManager.PromptOverride | Assets/Scripts/Gemini/CameraManager.cs:165-171 | no override exactly when the context is null or white space; otherwise the custom prompt, the lead-in, then the user's context verbatim |
| CameraManager.OverrideBecomesBasePrompt | Assets/Scripts/Gemini/CameraManager.cs:163-174 | the prompt the client starts from is the override when there is one and the custom prompt otherwise |
| CameraManager.RouteError | Assets/Scripts/Gemini/CameraManager.cs:176-204 | the usage-limit view exactly for usage-limit errors, with its fixed text; otherwise the initial panel with the error after a fixed banner |
| CameraManager.OnImageEncoded | Assets/Scripts/Gemini/CameraManager.cs:239-292 | an empty encoding starts nothing and returns to the initial panel with an error; bypass mode shows the results panel with its test text and starts nothing; without context mode, or without a context panel, the encoded image is analysed without context; only context mode parks the image; the context panel opens exactly in context mode with the panel present and no bypass |
| CameraManager.OnContextConfirmClick | Assets/Scripts/Gemini/CameraManager.cs:124-148 | without a pending image back to the initial panel; otherwise the pending image is analysed with the typed context (empty without an input field) and cleared |
| CameraManager.OnContextCancelClick | Assets/Scripts/Gemini/CameraManager.cs:150-156 | the pending image is dropped and the initial panel is shown; nothing starts |
| CameraManager.ParkedImageIsAnalysed | Assets/Scripts/Gemini/CameraManager.cs:124-148 | the image parked in context mode is the one analysed on confirm, with the typed context; a second confirm starts nothing |
| CameraManager.ConfidenceColor | Assets/Scripts/Gemini/CameraManager.cs:434-440 | green, orange and red exactly for high, medium and low ignoring case; grey for anything else, null included |
| CameraManager.ConfidenceColorIgnoresCase | Assets/Scripts/Gemini/CameraManager.cs:434-440 | the colour of a confidence text equals that of its lower-cased form |
| Pagination.ShowItem | Assets/Scripts/Gemini/CameraManager.cs:387-404 | never ignored; throws exactly when the result or its items are null or the index is out of range; either way the index is the one requested, and the arrows show exactly when `TotalItems` exceeds 1, except for a null result, which throws before the arrows are set |
| Pagination.ShowResultsAsWritten | Assets/Scripts/Gemini/CameraManager.cs:336-357 | a result with items resets to its first item; a result without items keeps the old index and arrows |
| Pagination.NextAsWritten | Assets/Scripts/Gemini/CameraManager.cs:359-371 | a null result or item array throws with nothing changed; on the last item or beyond the click is ignored; otherwise the index is incremented and `ShowItem` runs, so a throw keeps the new index and arrows; from an in-range index it never throws |
| Pagination.PreviousAsWritten | Assets/Scripts/Gemini/CameraManager.cs:373-385 | at index 0 or below the click is ignored; otherwise the index is decremented and `ShowItem` runs, so a throw keeps the new index and arrows; from an in-range index it never throws |
| Pagination.StaleIndexCrash | Assets/Scripts/Gemini/CameraManager.cs:336-385 | on the third of three items, an empty result keeps index 2 with the arrows shown, and Previous then throws, leaving index 1 with the arrows hidden |
| Pagination.ShowResults | Assets/Scripts/Gemini/CameraManager.cs:336-357 | corrected: always resets to the first item and hides the arrows when there are no items, leaving a consistent pager |
| Pagination.Next | Assets/Scripts/Gemini/CameraManager.cs:359-371 | corrected: from a consistent pager never throws and advances by one within range |
| Pagination.Previous | Assets/Scripts/Gemini/CameraManager.cs:373-385 | corrected: from a consistent pager never throws and steps back by one within range |
| Pagination.CorrectedAgreesInBounds | Assets/Scripts/Gemini/CameraManager.cs:359-385 | from an in-range index the corrected buttons behave exactly as written |
| Pagination.Apply | Assets/Scripts/Gemini/CameraManager.cs:336-385 | one delivery or click keeps the pager consistent |
| Pagination.Run | Assets/Scripts/Gemini/CameraManager.cs:336-385 | any sequence of deliveries and clicks keeps the pager consistent, its index in range whenever there are items |
| OpenAIController.BuildRequest | Assets/Scripts/OpenAI/OpenAIController.cs:82-108 | model gpt-4.1, temperature 0.1, 400 output tokens; a user message whose only content is one `input_text` carrying the analysis prompt, then an image item whose URL is never set |
| OpenAIController.PromptRoundTrip | Assets/Scripts/OpenAI/OpenAIController.cs:82-108 | round trip: the prompt read back from the built request is the analysis prompt, null included |
| OpenAIController.SendImage | Assets/Scripts/OpenAI/OpenAIController.cs:18-27 | no request exactly when the bytes are null or empty; otherwise the request carries the analysis prompt |
| OpenAIController.ScanContents | Assets/Scripts/OpenAI/OpenAIController.cs:141-148 | finds text exactly when some content is `output_text`, and returns the first one's text; throws exactly when a null content comes before any `output_text` |
| OpenAIController.ExtractOutputText | Assets/Scripts/OpenAI/OpenAIController.cs:137-149 | throws exactly when some output hits a null; otherwise the text is null without a hit, and else the first `output_text` of the last output that has one |
| OpenAIController.LastHitUnique | Assets/Scripts/OpenAI/OpenAIController.cs:139-149 | the last output with an `output_text` is unique |
| OpenAIController.ExtractsTextExactly | Assets/Scripts/OpenAI/OpenAIController.cs:135-152 | the text the loops leave is the one text the response determines |
| OpenAIController.ParseAndDisplay | Assets/Scripts/OpenAI/OpenAIController.cs:131-163 | a structured result comes from a non-empty extracted text that decodes to it; otherwise the raw response is shown, and then every extracted text is empty or fails to decode |
| OpenAIController.HandleResponse | Assets/Scripts/OpenAI/OpenAIController.cs:120-128 | nothing is displayed exactly when the request failed; a fall-back shows the response body |
| Scenarios.RateLimitedRunShowsUsageLimit | Assets/Scripts/Gemini/CameraManager.cs:176-204 | a 429 response to a ready client ends in the usage-limit view, with the cache untouched |
| Scenarios.StatusLineIsUsageLimit | Assets/Scripts/Gemini/GeminiClient.cs:504-522 | the API error text of a 429 response is a usage-limit error |
| Scenarios.MissingModelIdShowsError | Assets/Scripts/Gemini/GeminiClient.cs:268-276 | a missing model id sends nothing and returns to the initial panel with its message |
| Scenarios.ModelIdMessageIsNotUsageLimit | Assets/Scripts/Gemini/CameraManager.cs:92-106 | the missing-model-id message is not a usage limit |
| Scenarios.JacketTotals | Assets/Scripts/Gemini/GeminiClient.cs:57-59 | one item without a summary: contains animal products, one item, animal total 0 |
| Scenarios.CachedLeatherIsFilled | Assets/Scripts/Gemini/GeminiClient.cs:444-458 | a "leather" item is filled from a cached "Leather" entry and nothing is saved |
| Scenarios.FillNeedsEarlierSupply | Assets/Scripts/Gemini/GeminiClient.cs:440-476 | a summary supplied by a later item is cached but does not fill an earlier item |
| Text.JoinContainsEach | Assets/Scripts/Gemini/GeminiClient.cs:290 | every joined name occurs in the joined list |
| Text.JoinSnoc | Assets/Scripts/Gemini/GeminiClient.cs:290 | joining one more part appends the separator and that part, so parts keep their order |
| Text.ContainsLowerNoLetters | Assets/Scripts/Gemini/CameraManager.cs:99-105 | searching lower-cased text for a pattern without letters, such as "429", agrees with searching the original |

## Left out

- Loading and saving the cache file (`LoadCache`, `SaveCache`), and the editor-only reset. This is file I/O; a save is counted instead.
- `TestApiKey`: a separate network probe outside the analysis flow.
- Base64 encoding of the image and the layout of the JSON payload. Only the prompt's escaping is modelled.
- Status messages, the cycling loading texts, timing and logging.
- The rich-text layout `ShowItem` builds, the texture fitting, the time-spent counter and `ToUpper` of the confidence label.
- Picking and loading the image (`OnTakeClick`, `OnGalleryClick`, the native gallery). The model starts from the encoded bytes.
- The OpenAI path's Firebase upload (commented out in the source), the HTTP headers and `UIController`'s rendering.
- Case folding beyond ASCII: `ToLower` and `OrdinalIgnoreCase` are modelled for ASCII letters only.
- `float` arithmetic: the fields are `real`, and the code does no arithmetic on them.
- An exception thrown by the success callback. `AnalyzeImage` invokes `onParsedResult` inside its `try`, so such an exception is reported through `onError` as a parse error after the result was delivered; the model delivers the result and stops.
- An exception thrown while the OpenAI controller shows a structured result. `ShowStructuredResult` runs inside the `try` of `ParseAndDisplay`, so a failure there falls back to the raw text after a partial display; the model shows the structured result and stops.
- GeminiClient.ValidateApiKey: length is counted in characters, not UTF-16 code units. C# `Length` counts a character outside the Basic Multilingual Plane twice, so a key of 10 such characters draws no warning there, while the model reports it as too short. Dafny strings here are sequences of Unicode scalar values.
- GeminiClient.AnalyzeImageGrowsCache: the cache-growth facts are stated for a loaded cache only. With no cache, `AnalyzeImage` leaves it unloaded and counts no saves.

## Findings

| source | as written | input that shows it | evidently intended | confidence | as-written member | corrected member |
|---|---|---|---|---|---|---|
| Assets/Scripts/Gemini/GeminiClient.cs:295 | the prompt is escaped for a JSON string by replacing quotes, line feeds and carriage returns, but not backslashes or other control characters | a custom prompt or user context containing `\` (for example a Windows path), which ends up as an invalid escape or as an escaped quote that closes the string early | every character that JSON requires to be escaped is escaped, so the server reads back the prompt | not executed | JsonEscape.EscapeAsWrittenBreaksOnBackslash | JsonEscape.UnescapeEscape |
| Assets/Scripts/Gemini/CameraManager.cs:336-385 | `ShowResults` resets the index and arrows only when the new result has items | browse to the third of three items, then receive a result with no items: the index stays 2, the arrows stay visible, and Previous calls `ShowItem(1)` on an empty array | a new result always resets the pager, and the arrows never lead outside the current items | not executed | Pagination.StaleIndexCrash | Pagination.Run |

=== FILE: bytes.dfy ===
/** Raw image data (`byte[]`). */
module Bytes {
  /** One unsigned 8-bit byte. */
  newtype byte = x: int | 0 <= x < 256
}

=== FILE: camera_manager.dfy ===
/**
 * The non-UI decisions of the camera/result controller
 * (Assets/Scripts/Gemini/CameraManager.cs): classifying an error as a usage
 * limit, turning user context into a prompt override, routing an error to a
 * panel, the pending image kept while the user types context, and the
 * colour chosen for a confidence level. Paging through result items is in
 * module Pagination.
 *
 * Panels are reduced to the one most recently switched on; texture loading,
 * previews and log lines are not modelled.
 */
module CameraManager {
  import opened Wrappers
  import opened Bytes
  import opened Text
  import GeminiClient

  // ---------------------------------------------------------------------------
  // Usage-limit classifier
  // ---------------------------------------------------------------------------

  /** `IsUsageLimitError`: the lower-cased message mentions a usage limit, a
      quota, a rate limit, exhausted resources, or something exceeded
      together with billing or quota; or the message contains "429". */
  function IsUsageLimitError(errorMessage: Option<string>): (r: bool)
    ensures IsNullOrEmpty(errorMessage) ==> !r
    ensures !IsNullOrEmpty(errorMessage) ==> (r <==> SignalsUsageLimit(Lower(errorMessage.value)))
  {
    if IsNullOrEmpty(errorMessage) then false
    else
      var errorLower := Lower(errorMessage.value);
      ContainsLowerNoLetters(errorMessage.value, "429");
      || Contains(errorLower, "usage limit")
      || Contains(errorLower, "quota")
      || Contains(errorLower, "rate limit")
      || (Contains(errorLower, "exceeded") && (Contains(errorLower, "billing") || Contains(errorLower, "quota")))
      || Contains(errorLower, "resource exhausted")
      || Contains(errorMessage.value, "429")
  }

  /** The classifier's truth table stated on lower-cased text alone: one of
      the five phrases, or "exceeded" together with "billing". */
  predicate SignalsUsageLimit(lower: string) {
    || Contains(lower, "usage limit")
    || Contains(lower, "quota")
    || Contains(lower, "rate limit")
    || Contains(lower, "resource exhausted")
    || Contains(lower, "429")
    || (Contains(lower, "exceeded") && Contains(lower, "billing"))
  }

  /** The classifier ignores letter case. */
  lemma UsageLimitIgnoresCase(message: string)
    ensures IsUsageLimitError(Some(message)) == IsUsageLimitError(Some(Lower(message)))
  {
    LowerIdempotent(message);
  }

  /** A quota message is a usage limit. */
  lemma QuotaMessageIsUsageLimit()
    ensures IsUsageLimitError(Some("Quota exceeded for requests"))
  {
    assert Lower("Quota exceeded for requests")[0..5] == "quota";
    assert OccursAt(Lower("Quota exceeded for requests"), "quota", 0);
  }

  /** A 429 status line is a usage limit. */
  lemma TooManyRequestsIsUsageLimit()
    ensures IsUsageLimitError(Some("429 Too Many Requests"))
  {
    assert OccursAt("429 Too Many Requests", "429", 0);
  }

  /** A message whose lower-cased text has none of the signals is not a
      usage limit. */
  lemma NoSignalNoUsageLimit(message: string, lower: string)
    requires |message| > 0 && lower == Lower(message)
    requires !Contains(lower, "usage limit") && !Contains(lower, "quota")
    requires !Contains(lower, "rate limit") && !Contains(lower, "resource exhausted")
    requires !Contains(lower, "429") && !Contains(lower, "billing")
    ensures !IsUsageLimitError(Some(message))
  {
  }

  /** An invalid key is not a usage limit. */
  lemma InvalidKeyIsNotUsageLimit(message: string)
    requires message == "Invalid API key"
    ensures !IsUsageLimitError(Some(message))
  {
    var alphabet := {'I', 'n', 'v', 'a', 'l', 'i', 'd', ' ', 'A', 'P', 'k', 'e', 'y'};
    assert forall k | 0 <= k < |message| :: message[k] in alphabet;
    NotUsageLimitLacking(message, alphabet);
  }

  /** An unknown error is not a usage limit. */
  lemma UnknownErrorIsNotUsageLimit(message: string)
    requires message == "Unknown error"
    ensures !IsUsageLimitError(Some(message))
  {
    var alphabet := {'U', 'n', 'k', 'o', 'w', ' ', 'e', 'r'};
    assert forall k | 0 <= k < |message| :: message[k] in alphabet;
    NotUsageLimitLacking(message, alphabet);
  }

  /** A message drawn from an alphabet without the letters g, q and b, and
      without r or without a (in both cases), and without the digit 4, is
      not a usage limit: each signal phrase has a letter the message lacks. */
  lemma NotUsageLimitLacking(message: string, alphabet: set<char>)
    requires |message| > 0
    requires forall k | 0 <= k < |message| :: message[k] in alphabet
    requires '4' !in alphabet
    requires 'g' !in alphabet && 'G' !in alphabet && 'q' !in alphabet && 'Q' !in alphabet
    requires 'b' !in alphabet && 'B' !in alphabet
    requires ('r' !in alphabet && 'R' !in alphabet) || ('a' !in alphabet && 'A' !in alphabet)
    ensures !IsUsageLimitError(Some(message))
  {
    var lower := Lower(message);
    var rate := if 'r' !in alphabet && 'R' !in alphabet then 'r' else 'a';
    LowerLacks(message, alphabet, 'g');
    LowerLacks(message, alphabet, 'q');
    LowerLacks(message, alphabet, rate);
    LowerLacks(message, alphabet, 'b');
    LowerLacks(message, alphabet, '4');
    LacksSignals(lower, 'g', 'q', rate, rate, 'b');
    NoSignalNoUsageLimit(message, lower);
  }

  /** A text lacking one character of each signal phrase (and the digit 4)
      contains none of them. */
  lemma LacksSignals(lower: string, usage: char, quota: char, rate: char, resource: char, billing: char)
    requires usage in "usage limit" && usage !in lower
    requires quota in "quota" && quota !in lower
    requires rate in "rate limit" && rate !in lower
    requires resource in "resource exhausted" && resource !in lower
    requires billing in "billing" && billing !in lower
    requires '4' !in lower
    ensures !Contains(lower, "usage limit") && !Contains(lower, "quota")
    ensures !Contains(lower, "rate limit") && !Contains(lower, "resource exhausted")
    ensures !Contains(lower, "429") && !Contains(lower, "billing")
  {
    NotContainsWithout(lower, "usage limit", usage);
    NotContainsWithout(lower, "quota", quota);
    NotContainsWithout(lower, "rate limit", rate);
    NotContainsWithout(lower, "resource exhausted", resource);
    NotContainsWithout(lower, "429", '4');
    NotContainsWithout(lower, "billing", billing);
  }

  /** A pattern with a character the text lacks does not occur in it. */
  lemma NotContainsWithout(s: string, t: string, c: char)
    requires c in t && c !in s
    ensures !Contains(s, t)
  {
    var k :| 0 <= k < |t| && t[k] == c;
    if Contains(s, t) {
      ContainsHasChar(s, t, k);
    }
  }

  // ---------------------------------------------------------------------------
  // Prompt override and error routing
  // ---------------------------------------------------------------------------

  const UserContextLead := "\n\nAdditional context from user: "

  /** `StartAnalysis`'s override: none for blank context, otherwise the
      custom prompt followed by the user's context. */
  function PromptOverride(customPrompt: string, userContext: Option<string>): (r: Option<string>)
    ensures r.None? <==> IsNullOrWhiteSpace(userContext)
    ensures r.Some? ==> IsPrefix(customPrompt, r.value)
    ensures r.Some? ==> |r.value| == |customPrompt| + |UserContextLead| + |userContext.value|
    ensures r.Some? ==> r.value[|customPrompt| + |UserContextLead|..] == userContext.value
  {
    if IsNullOrWhiteSpace(userContext) then None
    else
      var r := customPrompt + UserContextLead + userContext.value;
      assert r[..|customPrompt|] == customPrompt;
      Some(r)
  }

  /** The override reaches the Gemini client's prompt: the client's base
      prompt is the custom prompt, extended by the context exactly when the
      context is not blank. */
  lemma OverrideBecomesBasePrompt(customPrompt: string, userContext: Option<string>)
    ensures GeminiClient.BasePrompt(customPrompt, PromptOverride(customPrompt, userContext))
         == if IsNullOrWhiteSpace(userContext) then customPrompt
            else customPrompt + UserContextLead + userContext.value
  {
    if !IsNullOrWhiteSpace(userContext) {
      var k :| 0 <= k < |userContext.value| && !IsWhiteSpaceChar(userContext.value[k]);
      var o := customPrompt + UserContextLead + userContext.value;
      assert o[|customPrompt| + |UserContextLead| + k] == userContext.value[k];
    }
  }

  const UsageLimitText := "AI usage limit exceeded, try again later."
  const ErrorBanner := "<color=#FF5555><b>Error:</b></color>\n"

  /** Where an analysis error is shown. */
  datatype ErrorView =
    | UsageLimitView(text: string)   // results panel, image kept
    | InitialView(text: string)      // back to the initial panel

  /** The error callback of `StartAnalysis`. */
  function RouteError(error: Option<string>): (v: ErrorView)
    ensures v.UsageLimitView? <==> IsUsageLimitError(error)
    ensures v.UsageLimitView? ==> v.text == UsageLimitText
    ensures v.InitialView? ==> IsPrefix(ErrorBanner, v.text) && v.text[|ErrorBanner|..] == error.GetOr("")
  {
    if IsUsageLimitError(error) then UsageLimitView(UsageLimitText)
    else
      var t := ErrorBanner + error.GetOr("");
      assert t[..|ErrorBanner|] == ErrorBanner;
      InitialView(t)
  }

  // ---------------------------------------------------------------------------
  // Pending image for context mode
  // ---------------------------------------------------------------------------

  /** The panel most recently switched on (`NoPanel` when the last step only
      switched one off). */
  datatype Panel = InitialPanel | LoadingPanel | ResultsPanel | ContextPanel | NoPanel

  /** The controller state these decisions read and write. */
  datatype Controller = Controller(panel: Panel, pending: Option<seq<byte>>)

  /** The inspector switches read by `ProcessImage`. */
  datatype Settings = Settings(bypassAICall: bool, provideMoreContext: bool, hasContextPanel: bool)

  /** A call of `StartAnalysis`. */
  datatype StartRequest = StartRequest(image: seq<byte>, promptOverride: Option<string>)

  /** A step: the new state, the analysis started (if any), and the text put
      into the result label (if any). */
  datatype Transition = Transition(state: Controller, started: Option<StartRequest>, text: Option<string>)

  const EncodeFailedText := "Error: Failed to process image. Please try again."
  const BypassText := "UI test"

  /** The tail of `ProcessImage` once the picked image is encoded: reject an
      empty encoding, short-circuit in bypass mode, park the image for context
      mode, or start the analysis without context. */
  function OnImageEncoded(st: Controller, settings: Settings, imageBytes: Option<seq<byte>>,
                          customPrompt: string): (t: Transition)
    ensures (imageBytes.None? || |imageBytes.value| == 0) ==>
      t.started.None? && t.state.panel == InitialPanel && t.text == Some(EncodeFailedText)
    ensures t.started.Some? ==>
      t.started.value == StartRequest(imageBytes.value, None) && |imageBytes.value| > 0
    ensures t.state.pending != st.pending ==>
      settings.provideMoreContext && t.state.pending == imageBytes
      && imageBytes.Some? && |imageBytes.value| > 0
    ensures t.state.panel == ContextPanel <==>
      imageBytes.Some? && |imageBytes.value| > 0 && !settings.bypassAICall
      && settings.provideMoreContext && settings.hasContextPanel
    ensures imageBytes.Some? && |imageBytes.value| > 0 && settings.bypassAICall ==>
      t.started.None? && t.state.panel == ResultsPanel && t.text == Some(BypassText)
    ensures imageBytes.Some? && |imageBytes.value| > 0 && !settings.bypassAICall
            && (!settings.provideMoreContext || !settings.hasContextPanel)
        ==> t.started == Some(StartRequest(imageBytes.value, None))
    ensures imageBytes.Some? && |imageBytes.value| > 0 && !settings.bypassAICall && !settings.provideMoreContext
        ==> t.state == st.(panel := LoadingPanel)
  {
    if imageBytes.None? || |imageBytes.value| == 0 then
      Transition(st.(panel := InitialPanel), None, Some(EncodeFailedText))
    else if settings.bypassAICall then
      Transition(st.(panel := ResultsPanel), None, Some(BypassText))
    else if settings.provideMoreContext then
      var parked := Controller(NoPanel, imageBytes);
      if settings.hasContextPanel then Transition(parked.(panel := ContextPanel), None, None)
      else Transition(parked, Some(StartRequest(imageBytes.value, PromptOverride(customPrompt, None))), None)
    else
      Transition(st.(panel := LoadingPanel), Some(StartRequest(imageBytes.value, PromptOverride(customPrompt, None))), None)
  }

  /** `OnContextConfirmClick`: without a pending image, back to the initial
      panel; otherwise start the analysis with the typed context (empty when
      there is no input field) and clear the pending image. */
  function OnContextConfirmClick(st: Controller, inputField: Option<string>, customPrompt: string): (t: Transition)
    ensures (st.pending.None? || |st.pending.value| == 0) ==>
      t == Transition(st.(panel := InitialPanel), None, None)
    ensures (st.pending.Some? && |st.pending.value| > 0) ==>
      && t.started == Some(StartRequest(st.pending.value, PromptOverride(customPrompt, Some(inputField.GetOr("")))))
      && t.state == Controller(LoadingPanel, None)
  {
    if st.pending.None? || |st.pending.value| == 0 then Transition(st.(panel := InitialPanel), None, None)
    else
      var userContext := inputField.GetOr("");
      Transition(Controller(LoadingPanel, None),
                 Some(StartRequest(st.pending.value, PromptOverride(customPrompt, Some(userContext)))), None)
  }

  /** `OnContextCancelClick`: drop the pending image, back to the initial
      panel. */
  function OnContextCancelClick(st: Controller): (t: Transition)
    ensures t.state == Controller(InitialPanel, None) && t.started.None?
  {
    Transition(Controller(InitialPanel, None), None, None)
  }

  /** The image parked in context mode is the image analysed on confirm, with
      the typed context in the prompt; confirming again starts nothing. */
  lemma ParkedImageIsAnalysed(st: Controller, settings: Settings, image: seq<byte>,
                              customPrompt: string, typed: string)
    requires |image| > 0 && !settings.bypassAICall && settings.provideMoreContext && settings.hasContextPanel
    ensures
      var parked := OnImageEncoded(st, settings, Some(image), customPrompt);
      var confirmed := OnContextConfirmClick(parked.state, Some(typed), customPrompt);
      && parked.started.None?
      && confirmed.started == Some(StartRequest(image, PromptOverride(customPrompt, Some(typed))))
      && OnContextConfirmClick(confirmed.state, Some(typed), customPrompt).started.None?
  {
  }

  // ---------------------------------------------------------------------------
  // Confidence colour
  // ---------------------------------------------------------------------------

  /** The colour of the confidence label in `ShowItem`. */
  function ConfidenceColor(confidence: Option<string>): (c: string)
    ensures c in ["#55FF55", "#FFAA55", "#FF5555", "#AAAAAA"]
    ensures c == "#55FF55" <==> confidence.Some? && SameIgnoringCase(confidence.value, "high")
    ensures c == "#FFAA55" <==> confidence.Some? && SameIgnoringCase(confidence.value, "medium")
    ensures c == "#FF5555" <==> confidence.Some? && SameIgnoringCase(confidence.value, "low")
  {
    if confidence.None? then "#AAAAAA"
    else
      var lower := Lower(confidence.value);
      assert Lower("high") == "high" && Lower("medium") == "medium" && Lower("low") == "low";
      if lower == "high" then "#55FF55"
      else if lower == "medium" then "#FFAA55"
      else if lower == "low" then "#FF5555"
      else "#AAAAAA"
  }

  /** The colour depends on the confidence text only up to letter case. */
  lemma ConfidenceColorIgnoresCase(confidence: string)
    ensures ConfidenceColor(Some(confidence)) == ConfidenceColor(Some(Lower(confidence)))
  {
    LowerIdempotent(confidence);
  }
}

=== FILE: gemini_client.dfy ===
/**
 * The Gemini analysis client (Assets/Scripts/Gemini/GeminiClient.cs): the
 * pre-flight checks on the API key and model id, prompt assembly, the
 * request it sends, extraction of the application JSON from the response
 * envelope, and the whole `AnalyzeImage` flow from configuration to the one
 * callback it invokes.
 *
 * The HTTP exchange, `JsonUtility` decoding and base64 encoding are not
 * executed here: the HTTP outcome is a parameter, and the two decoders are
 * function parameters that return the decoded object, null, or the message
 * of the exception `JsonUtility` throws.
 */
module GeminiClient {
  import opened Wrappers
  import opened Bytes
  import opened Text
  import JsonEscape
  import opened MaterialCache
  import opened GeminiModel
  import opened Reconciliation

  /** The inspector default of `apiKey`, treated as "not set". */
  const PlaceholderApiKey := "YOUR_API_KEY_HERE"

  /** Keys shorter than this draw a warning from `ValidateApiKey`. */
  const MinimumKeyLength := 20

  const ApiKeyNotSetMessage := "API Key is not set. Please set your Gemini API key in the GeminiClient component."
  const ModelIdNotSetMessage := "Model ID is not set."

  /** The inspector-configured fields the flow reads. */
  datatype Config = Config(apiKey: Option<string>, modelId: Option<string>, customPrompt: string)

  /** The key is neither null, empty nor the placeholder. */
  predicate KeyIsSet(apiKey: Option<string>) {
    !IsNullOrEmpty(apiKey) && apiKey.value != PlaceholderApiKey
  }

  /** What `ValidateApiKey` logs. */
  datatype KeyCheck = KeyNotSet | KeyTooShort | KeyLooksValid

  /** `ValidateApiKey`: a warning for an unset key, a warning for a key
      shorter than 20 characters, otherwise an informational log line. */
  function ValidateApiKey(apiKey: Option<string>): (r: KeyCheck)
    ensures r.KeyNotSet? <==> !KeyIsSet(apiKey)
    ensures r.KeyTooShort? <==> KeyIsSet(apiKey) && |apiKey.value| < MinimumKeyLength
  {
    if IsNullOrEmpty(apiKey) || apiKey.value == PlaceholderApiKey then KeyNotSet
    else if |apiKey.value| < MinimumKeyLength then KeyTooShort
    else KeyLooksValid
  }

  /** The two pre-flight checks of `AnalyzeImage`, key first: the error
      message, or `None` when both pass. */
  function PreFlight(config: Config): (r: Option<string>)
    ensures r.None? <==> KeyIsSet(config.apiKey) && !IsNullOrEmpty(config.modelId)
    ensures !KeyIsSet(config.apiKey) ==> r == Some(ApiKeyNotSetMessage)
    ensures KeyIsSet(config.apiKey) && IsNullOrEmpty(config.modelId) ==> r == Some(ModelIdNotSetMessage)
  {
    if IsNullOrEmpty(config.apiKey) || config.apiKey.value == PlaceholderApiKey then Some(ApiKeyNotSetMessage)
    else if IsNullOrEmpty(config.modelId) then Some(ModelIdNotSetMessage)
    else None
  }

  /** The names of the cache entries, in cache order. The contract gives
      `NoteListsMaterials` each name by its index without unfolding the
      comprehension. */
  function MaterialNames(entries: seq<Entry>): (names: seq<string>)
    ensures |names| == |entries|
    ensures forall i :: 0 <= i < |entries| ==> names[i] == entries[i].materialName
  {
    seq(|entries|, i requires 0 <= i < |entries| => entries[i].materialName)
  }

  /** The text before and after the list of names in the known-materials note. */
  const NoteLead := "\n\nNOTE: I already have detailed production summaries for the following materials: "
  const NoteTail := ". If you identify any of these, please leave the 'production_summary' field empty or null to save tokens. I will fill it in from my local database."

  /** The note telling the model which materials already have summaries. */
  function KnownMaterialsNote(knownMaterials: string): string {
    NoteLead + knownMaterials + NoteTail
  }

  /** The override when it has non-white-space text, else the custom prompt. */
  function BasePrompt(customPrompt: string, promptOverride: Option<string>): string {
    if IsNullOrWhiteSpace(promptOverride) then customPrompt else promptOverride.value
  }

  /** The prompt sent with the image: the base prompt, followed by the
      known-materials note when the cache has entries. */
  function PromptText(customPrompt: string, promptOverride: Option<string>, cache: Cache): (r: string)
    ensures IsPrefix(BasePrompt(customPrompt, promptOverride), r)
    ensures r == BasePrompt(customPrompt, promptOverride) <==> cache.None? || |cache.value| == 0
    ensures cache.Some? ==> forall i :: 0 <= i < |cache.value| ==> Contains(r, cache.value[i].materialName)
    ensures cache.Some? && |cache.value| > 0
        ==> r == BasePrompt(customPrompt, promptOverride) + NoteLead + Join(", ", MaterialNames(cache.value)) + NoteTail
  {
    var base := BasePrompt(customPrompt, promptOverride);
    if cache.Some? && |cache.value| > 0 then
      NoteListsMaterials(base, cache.value);
      base + KnownMaterialsNote(Join(", ", MaterialNames(cache.value)))
    else
      assert base[..|base|] == base;
      base
  }

  /** The prompt with the note starts with the base prompt, is longer, and
      names every cached material. */
  lemma NoteListsMaterials(base: string, entries: seq<Entry>)
    ensures var r := base + KnownMaterialsNote(Join(", ", MaterialNames(entries)));
      && IsPrefix(base, r)
      && |r| > |base|
      && forall i :: 0 <= i < |entries| ==> Contains(r, entries[i].materialName)
  {
    var names := Join(", ", MaterialNames(entries));
    var r := base + KnownMaterialsNote(names);
    assert r == base + (NoteLead + names + NoteTail);
    assert r[..|base|] == base;
    forall i | 0 <= i < |entries| ensures Contains(r, entries[i].materialName) {
      var m := entries[i].materialName;
      JoinContainsEach(", ", MaterialNames(entries), i);
      ContainsAfter(NoteLead, names, m);
      ContainsBefore(NoteLead + names, NoteTail, m);
      ContainsAfter(base, NoteLead + names + NoteTail, m);
    }
  }

  /** The note for a single cached material names just that material. */
  lemma NoteForOneEntry(customPrompt: string, promptOverride: Option<string>, e: Entry)
    ensures PromptText(customPrompt, promptOverride, Some([e]))
      == BasePrompt(customPrompt, promptOverride) + NoteLead + e.materialName + NoteTail
  {
    assert MaterialNames([e]) == [e.materialName];
  }

  /** Cache order, with ", " between names: appending an entry to a
      non-empty cache inserts ", " and its name just before the note's
      closing text. */
  lemma NoteAppendsEntry(customPrompt: string, promptOverride: Option<string>, entries: seq<Entry>, e: Entry)
    requires |entries| > 0
    ensures
      var before := PromptText(customPrompt, promptOverride, Some(entries));
      var after := PromptText(customPrompt, promptOverride, Some(entries + [e]));
      && |before| >= |NoteTail|
      && after == before[..|before| - |NoteTail|] + ", " + e.materialName + NoteTail
  {
    var base := BasePrompt(customPrompt, promptOverride);
    var names := MaterialNames(entries);
    assert MaterialNames(entries + [e]) == names + [e.materialName];
    NoteAppendsName(base, names, e.materialName);
  }

  /** `NoteAppendsEntry` on the joined names. */
  lemma NoteAppendsName(base: string, names: seq<string>, m: string)
    requires |names| > 0
    ensures
      var before := base + NoteLead + Join(", ", names) + NoteTail;
      && |before| >= |NoteTail|
      && base + NoteLead + Join(", ", names + [m]) + NoteTail == before[..|before| - |NoteTail|] + ", " + m + NoteTail
  {
    JoinSnoc(", ", names, m);
    var head := base + NoteLead + Join(", ", names);
    var before := head + NoteTail;
    assert before[..|head|] == head;
  }

  /** The request endpoint. */
  function BaseUrl(modelId: string, apiKey: string): string {
    "https://generativelanguage.googleapis.com/v1beta/models/" + modelId + ":generateContent?key=" + apiKey
  }

  /** What is sent: the endpoint, the prompt, its escaped form placed in the
      request body, and the image declared as JPEG. The fixed response schema
      is not represented. */
  datatype GeminiRequest = GeminiRequest(
    url: string,
    promptText: string,
    escapedPrompt: string,
    image: seq<byte>,
    mimeType: string)

  /** The pre-flight checks followed by request construction. */
  function BuildRequest(config: Config, cache: Cache, image: seq<byte>, promptOverride: Option<string>)
    : (r: Result<GeminiRequest, string>)
    ensures r.Err? <==> PreFlight(config).Some?
    ensures r.Err? ==> r.error == PreFlight(config).value
    ensures r.Ok? ==> r.value.promptText == PromptText(config.customPrompt, promptOverride, cache)
    ensures r.Ok? ==> r.value.escapedPrompt == JsonEscape.EscapeAsWritten(r.value.promptText)
    ensures r.Ok? ==> '\n' !in r.value.escapedPrompt && '\r' !in r.value.escapedPrompt
    ensures r.Ok? && JsonEscape.SafeForAsWritten(r.value.promptText) ==>
      JsonEscape.Unescape(r.value.escapedPrompt) == Some(JsonEscape.StripCR(r.value.promptText))
    ensures r.Ok? ==> r.value.image == image && r.value.mimeType == "image/jpeg"
  {
    match PreFlight(config)
    case Some(message) => Err(message)
    case None =>
      var prompt := PromptText(config.customPrompt, promptOverride, cache);
      JsonEscape.EscapeAsWrittenRoundTrip(prompt);
      Ok(GeminiRequest(BaseUrl(config.modelId.value, config.apiKey.value), prompt,
                       JsonEscape.EscapeAsWritten(prompt), image, "image/jpeg"))
  }

  // ---------------------------------------------------------------------------
  // Response envelope
  // ---------------------------------------------------------------------------

  /** Why the envelope yields no application JSON. `NullCandidate` and
      `NullPart` are the null dereferences of a null array element. */
  datatype EnvelopeError =
    | NullResponse | NoCandidates | NullCandidate | NoContent | NoParts | NullPart | NoText

  const NullReferenceMessage := "Object reference not set to an instance of an object."

  /** The exception message raised for each envelope error. */
  function EnvelopeErrorMessage(e: EnvelopeError, body: string): string {
    match e
    case NullResponse => "Failed to parse API response - response is null"
    case NoCandidates => "API response has no candidates. Full response: " + body
    case NullCandidate => NullReferenceMessage
    case NoContent => "API response candidate has no content"
    case NoParts => "API response candidate has no parts"
    case NullPart => NullReferenceMessage
    case NoText => "API response part has no text content"
  }

  // How far down `candidates[0].content.parts[0].text` the envelope goes:
  // each predicate adds one of the source's checks to the one before it.

  /** The envelope is non-null with a non-empty candidate array. */
  predicate HasCandidates(resp: Option<GeminiResponse>) {
    resp.Some? && resp.value.candidates.Some? && |resp.value.candidates.value| > 0
  }

  /** ... and its first candidate is non-null. */
  predicate HasFirstCandidate(resp: Option<GeminiResponse>) {
    HasCandidates(resp) && resp.value.candidates.value[0].Some?
  }

  /** ... with content. */
  predicate HasContent(resp: Option<GeminiResponse>) {
    HasFirstCandidate(resp) && resp.value.candidates.value[0].value.content.Some?
  }

  /** ... whose part array is non-null and non-empty. */
  predicate HasParts(resp: Option<GeminiResponse>) {
    && HasContent(resp)
    && resp.value.candidates.value[0].value.content.value.parts.Some?
    && |resp.value.candidates.value[0].value.content.value.parts.value| > 0
  }

  /** ... and whose first part is non-null. */
  predicate HasFirstPart(resp: Option<GeminiResponse>) {
    HasParts(resp) && resp.value.candidates.value[0].value.content.value.parts.value[0].Some?
  }

  /** The envelope has a first candidate with content whose first part has
      non-empty text. */
  predicate HasInnerJson(resp: Option<GeminiResponse>) {
    HasFirstPart(resp)
    && !IsNullOrEmpty(resp.value.candidates.value[0].value.content.value.parts.value[0].value.text)
  }

  /** `candidates[0].content.parts[0].text`, checked step by step in the
      source's order. */
  function ExtractInnerJson(resp: Option<GeminiResponse>): (r: Result<string, EnvelopeError>)
    ensures r.Ok? <==> HasInnerJson(resp)
    ensures r.Ok? ==> |r.value| > 0
    ensures r.Ok? ==>
      r.value == resp.value.candidates.value[0].value.content.value.parts.value[0].value.text.value
    ensures r == Err(NullResponse) <==> resp.None?
    ensures r == Err(NoCandidates) <==>
      resp.Some? && (resp.value.candidates.None? || |resp.value.candidates.value| == 0)
    ensures r == Err(NullCandidate) <==> HasCandidates(resp) && !HasFirstCandidate(resp)
    ensures r == Err(NoContent) <==> HasFirstCandidate(resp) && !HasContent(resp)
    ensures r == Err(NoParts) <==> HasContent(resp) && !HasParts(resp)
    ensures r == Err(NullPart) <==> HasParts(resp) && !HasFirstPart(resp)
    ensures r == Err(NoText) <==> HasFirstPart(resp) && !HasInnerJson(resp)
  {
    if resp.None? then Err(NullResponse)
    else
      var candidates := resp.value.candidates;
      if candidates.None? || |candidates.value| == 0 then Err(NoCandidates)
      else if candidates.value[0].None? then Err(NullCandidate)
      else
        var content := candidates.value[0].value.content;
        if content.None? then Err(NoContent)
        else if content.value.parts.None? || |content.value.parts.value| == 0 then Err(NoParts)
        else if content.value.parts.value[0].None? then Err(NullPart)
        else
          var text := content.value.parts.value[0].value.text;
          if IsNullOrEmpty(text) then Err(NoText)
          else Ok(text.value)
  }

  /** An envelope carrying `text` as the first part of the first candidate. */
  function Wrap(text: string, usage: Option<UsageMetadata>): GeminiResponse {
    GeminiResponse(Some([Some(Candidate(Some(Content(Some([Some(Part(Some(text)))])))))]), usage)
  }

  /** Round trip: wrapping text and extracting it gives the text back, unless
      it is empty; further candidates and parts are never looked at. */
  lemma ExtractWrap(text: string, usage: Option<UsageMetadata>,
                    moreParts: seq<Option<Part>>, moreCandidates: seq<Option<Candidate>>)
    ensures ExtractInnerJson(Some(Wrap(text, usage))) == if |text| > 0 then Ok(text) else Err(NoText)
    ensures
      var first := Some(Candidate(Some(Content(Some([Some(Part(Some(text)))] + moreParts)))));
      ExtractInnerJson(Some(GeminiResponse(Some([first] + moreCandidates), usage)))
        == ExtractInnerJson(Some(Wrap(text, usage)))
  {
  }

  // ---------------------------------------------------------------------------
  // Parsing and reconciliation
  // ---------------------------------------------------------------------------

  /** The message handed to the error callback when parsing throws. */
  function ParseErrorMessage(reason: string, body: string): string {
    "Parse Error: " + reason + "\n\nResponse text: " + body
  }

  const InnerJsonFailureMessage := "Failed to parse inner JSON into PredictionResult"

  /** What `JsonUtility.FromJson` gives: an object, null, or the message of
      the exception it threw. */
  datatype Decoded<T> = Value(value: T) | Null | Threw(message: string)

  /** The envelope steps of the parse: the application JSON, or the message
      of the exception that ends the parse. */
  function InnerJsonOf(body: string, decoded: Decoded<GeminiResponse>): (r: Result<string, string>)
    ensures r.Ok? <==> decoded.Value? && HasInnerJson(Some(decoded.value))
    ensures r.Ok? ==> r.value == ExtractInnerJson(Some(decoded.value)).value
    ensures decoded.Threw? ==> r == Err(decoded.message)
    ensures decoded.Null? ==> r == Err(EnvelopeErrorMessage(NullResponse, body))
    ensures decoded.Value? && r.Err? ==>
      r == Err(EnvelopeErrorMessage(ExtractInnerJson(Some(decoded.value)).error, body))
  {
    match decoded
    case Threw(reason) => Err(reason)
    case Null => Err(EnvelopeErrorMessage(NullResponse, body))
    case Value(resp) =>
      match ExtractInnerJson(Some(resp))
      case Err(e) => Err(EnvelopeErrorMessage(e, body))
      case Ok(text) => Ok(text)
  }

  /** A successful parse: the result handed to the callback and the cache
      after reconciliation, with the number of saves. */
  datatype Parsed = Parsed(result: PredictionResult, cache: Cache, writes: nat)

  /** The successful-response branch of `AnalyzeImage`: envelope, inner JSON,
      normalisation of a missing item array, then the reconciliation pass.
      Every exception becomes the parse-error message around its text. */
  function ParseResponse(body: string,
                         decodeEnvelope: string -> Decoded<GeminiResponse>,
                         decodeInner: string -> Decoded<PredictionResult>,
                         cache: Cache): (r: Result<Parsed, string>)
    ensures r.Ok? <==>
      InnerJsonOf(body, decodeEnvelope(body)).Ok?
      && decodeInner(InnerJsonOf(body, decodeEnvelope(body)).value).Value?
    ensures InnerJsonOf(body, decodeEnvelope(body)).Err? ==>
      r == Err(ParseErrorMessage(InnerJsonOf(body, decodeEnvelope(body)).error, body))
    ensures InnerJsonOf(body, decodeEnvelope(body)).Ok? ==>
      var inner := decodeInner(InnerJsonOf(body, decodeEnvelope(body)).value);
      && (inner.Threw? ==> r == Err(ParseErrorMessage(inner.message, body)))
      && (inner.Null? ==> r == Err(ParseErrorMessage(InnerJsonFailureMessage, body)))
    ensures r.Ok? ==>
      var decoded := decodeInner(InnerJsonOf(body, decodeEnvelope(body)).value).value;
      && r.value.result.summary == decoded.summary
      && r.value.result.items.Some?
      && (decoded.items.None? ==>
            r.value.result.items == Some([]) && r.value.cache == cache && r.value.writes == 0)
      && (decoded.items.Some? ==>
            && r.value.result.items.value == Reconcile(decoded.items.value, cache).items
            && r.value.cache == Reconcile(decoded.items.value, cache).cache
            && r.value.writes == Reconcile(decoded.items.value, cache).writes
            && |r.value.result.items.value| == |decoded.items.value|
            && forall i :: 0 <= i < |decoded.items.value| ==>
                 SummaryOnlyFilled(decoded.items.value[i], r.value.result.items.value[i]))
    ensures r.Ok? && cache.Some? ==>
      && r.value.cache.Some? && cache.value <= r.value.cache.value
      && r.value.writes == |r.value.cache.value| - |cache.value|
    ensures r.Ok? && cache.None? ==> r.value.cache.None? && r.value.writes == 0
  {
    match InnerJsonOf(body, decodeEnvelope(body))
    case Err(reason) => Err(ParseErrorMessage(reason, body))
    case Ok(innerJson) =>
      match decodeInner(innerJson)
      case Threw(reason) => Err(ParseErrorMessage(reason, body))
      case Null => Err(ParseErrorMessage(InnerJsonFailureMessage, body))
      case Value(result) =>
        if result.items.None? then Ok(Parsed(result.(items := Some([])), cache, 0))
        else
          var pass := Reconcile(result.items.value, cache);
          Ok(Parsed(result.(items := Some(pass.items)), pass.cache, pass.writes))
  }

  // ---------------------------------------------------------------------------
  // The whole flow
  // ---------------------------------------------------------------------------

  /** The outcome of the web request. */
  datatype HttpOutcome =
    | HttpSuccess(body: string)
    | HttpFailure(error: Option<string>, responseCode: int, body: string)

  /** The hint appended to the error message for a few status codes. */
  function ErrorTip(responseCode: int): string {
    if responseCode == 400 then "\n\nTip: This might be due to an invalid API key, model name, or request format."
    else if responseCode == 401 || responseCode == 403 then "\n\nTip: Your API key might be invalid or expired. Please check your Google Cloud Console."
    else if responseCode == 429 then "\n\nTip: Rate limit exceeded. Please wait a moment and try again."
    else ""
  }

  /** The message handed to the error callback when the request fails. */
  function ApiErrorMessage(error: Option<string>, responseCode: int, body: string): string {
    "API Error: " + error.GetOr("") + "\nResponse Code: " + IntToString(responseCode)
      + "\nResponse: " + body + ErrorTip(responseCode)
  }

  /** The one callback `AnalyzeImage` invokes. */
  datatype Callback = OnParsedResult(result: PredictionResult) | OnError(message: string)

  /** A run of `AnalyzeImage`: the request sent (none when a pre-flight check
      fails), the callback invoked, and the cache afterwards with the number
      of saves. */
  datatype Run = Run(request: Option<GeminiRequest>, callback: Callback, cache: Cache, writes: nat)

  /** `AnalyzeImage`, with the HTTP outcome supplied by the caller. */
  function AnalyzeImage(config: Config, cache: Cache, image: seq<byte>, promptOverride: Option<string>,
                        response: HttpOutcome,
                        decodeEnvelope: string -> Decoded<GeminiResponse>,
                        decodeInner: string -> Decoded<PredictionResult>): (r: Run)
    ensures r.request.None? <==> PreFlight(config).Some?
    ensures r.request.None? ==> r.callback == OnError(PreFlight(config).value)
    ensures r.request.Some? ==> r.request.value.promptText == PromptText(config.customPrompt, promptOverride, cache)
    ensures r.request.Some? && response.HttpFailure? ==>
      r.callback == OnError(ApiErrorMessage(response.error, response.responseCode, response.body))
    ensures r.callback.OnError? ==> r.cache == cache && r.writes == 0
    ensures r.callback.OnParsedResult? ==> r.request.Some? && response.HttpSuccess? && r.callback.result.items.Some?
    ensures r.request.Some? && response.HttpSuccess? ==>
      match ParseResponse(response.body, decodeEnvelope, decodeInner, cache)
      case Ok(parsed) =>
        r.callback == OnParsedResult(parsed.result) && r.cache == parsed.cache && r.writes == parsed.writes
      case Err(message) => r.callback == OnError(message)
  {
    match BuildRequest(config, cache, image, promptOverride)
    case Err(message) => Run(None, OnError(message), cache, 0)
    case Ok(request) => Deliver(request, cache, response, decodeEnvelope, decodeInner)
  }

  /** What happens once the request is sent: a failed request reports the
      API error, a successful one is parsed and reconciled. */
  function Deliver(request: GeminiRequest, cache: Cache, response: HttpOutcome,
                   decodeEnvelope: string -> Decoded<GeminiResponse>,
                   decodeInner: string -> Decoded<PredictionResult>): (r: Run)
    ensures r.request == Some(request)
    ensures response.HttpFailure? ==>
      r.callback == OnError(ApiErrorMessage(response.error, response.responseCode, response.body))
    ensures r.callback.OnError? ==> r.cache == cache && r.writes == 0
    ensures r.callback.OnParsedResult? ==> response.HttpSuccess? && r.callback.result.items.Some?
    ensures response.HttpSuccess? ==>
      match ParseResponse(response.body, decodeEnvelope, decodeInner, cache)
      case Ok(parsed) =>
        r.callback == OnParsedResult(parsed.result) && r.cache == parsed.cache && r.writes == parsed.writes
      case Err(message) => r.callback == OnError(message)
    ensures cache.Some? ==>
      r.cache.Some? && cache.value <= r.cache.value && r.writes == |r.cache.value| - |cache.value|
    ensures cache.Some? && WellFormed(cache.value) ==> WellFormed(r.cache.value)
  {
    match response
    case HttpFailure(error, code, body) =>
      Run(Some(request), OnError(ApiErrorMessage(error, code, body)), cache, 0)
    case HttpSuccess(body) =>
      match ParseResponse(body, decodeEnvelope, decodeInner, cache)
      case Err(message) => Run(Some(request), OnError(message), cache, 0)
      case Ok(parsed) =>
        ParsedKeepsWellFormed(body, decodeEnvelope, decodeInner, cache);
        Run(Some(request), OnParsedResult(parsed.result), parsed.cache, parsed.writes)
  }

  /** A run only ever appends to a loaded cache, counts one save per
      appended entry, and keeps the cache invariant. */
  lemma AnalyzeImageGrowsCache(config: Config, cache: Cache, image: seq<byte>, promptOverride: Option<string>,
                               response: HttpOutcome,
                               decodeEnvelope: string -> Decoded<GeminiResponse>,
                               decodeInner: string -> Decoded<PredictionResult>)
    requires cache.Some?
    ensures
      var r := AnalyzeImage(config, cache, image, promptOverride, response, decodeEnvelope, decodeInner);
      && r.cache.Some? && cache.value <= r.cache.value
      && r.writes == |r.cache.value| - |cache.value|
      && (WellFormed(cache.value) ==> WellFormed(r.cache.value))
  {
  }

  /** Parsing keeps the cache invariant. */
  lemma ParsedKeepsWellFormed(body: string,
                              decodeEnvelope: string -> Decoded<GeminiResponse>,
                              decodeInner: string -> Decoded<PredictionResult>,
                              cache: Cache)
    ensures
      var r := ParseResponse(body, decodeEnvelope, decodeInner, cache);
      r.Ok? && cache.Some? && WellFormed(cache.value) ==> WellFormed(r.value.cache.value)
  {
  }

  /** An unset key or model id stops the flow before any request is built,
      whatever the server would have answered. */
  lemma PreFlightStopsRequest(config: Config, cache: Cache, image: seq<byte>, promptOverride: Option<string>,
                              response: HttpOutcome,
                              decodeEnvelope: string -> Decoded<GeminiResponse>,
                              decodeInner: string -> Decoded<PredictionResult>)
    requires !KeyIsSet(config.apiKey) || IsNullOrEmpty(config.modelId)
    ensures AnalyzeImage(config, cache, image, promptOverride, response, decodeEnvelope, decodeInner)
         == Run(None, OnError(PreFlight(config).value), cache, 0)
    ensures !KeyIsSet(config.apiKey) ==> ValidateApiKey(config.apiKey) == KeyNotSet
  {
  }
}

=== FILE: gemini_model.dfy ===
/**
 * The data classes of the Gemini client
 * (Assets/Scripts/Gemini/GeminiClient.cs:31-93): the per-item analysis, the
 * optional summary, the prediction result with its derived accessors, and
 * the response envelope. Every C# reference field that may be null is an
 * `Option`; C# `float` fields are `real` values that are carried along but
 * never computed with.
 */
module GeminiModel {
  import opened Wrappers

  /** `ItemAnalysis`: one detected clothing or footwear item. */
  datatype ItemAnalysis = ItemAnalysis(
    name: Option<string>,
    material: Option<string>,
    species: Option<string>,
    animalCount: real,
    confidence: Option<string>,
    productionSummary: Option<string>)

  /** `PredictionSummary`. */
  datatype PredictionSummary = PredictionSummary(totalEstimatedAnimals: real, itemCount: int)

  /** `PredictionResult`: the application JSON embedded in the envelope. */
  datatype PredictionResult = PredictionResult(
    summary: Option<PredictionSummary>,
    items: Option<seq<Option<ItemAnalysis>>>)
  {
    /** `ContainsAnimalProducts`: the item array is present and non-empty. */
    predicate ContainsAnimalProducts() {
      items.Some? && |items.value| > 0
    }

    /** `TotalItems`: the summary's count when there is a summary, otherwise
        the number of items (zero without an item array). */
    function TotalItems(): (n: int)
      ensures summary.Some? ==> n == summary.value.itemCount
      ensures summary.None? && items.Some? ==> n == |items.value|
      ensures summary.None? ==> n >= 0
      ensures summary.None? ==> (n > 0 <==> ContainsAnimalProducts())
    {
      if summary.Some? then summary.value.itemCount
      else if items.Some? then |items.value|
      else 0
    }

    /** `TotalEstimatedAnimalCount`: the summary's total, or zero without a
        summary (the item counts are not added up). */
    function TotalEstimatedAnimalCount(): real {
      if summary.Some? then summary.value.totalEstimatedAnimals else 0.0
    }
  }

  /** With a summary block both totals come from it, whatever the item array
      holds, even when its count disagrees with the array's length. */
  lemma SummaryOverridesItems(result: PredictionResult, items: Option<seq<Option<ItemAnalysis>>>)
    requires result.summary.Some?
    ensures result.(items := items).TotalItems() == result.TotalItems()
    ensures result.(items := items).TotalEstimatedAnimalCount() == result.TotalEstimatedAnimalCount()
  {
  }

  /** The animal total never looks at the items: without a summary block it
      is zero, however many animals the items report. */
  lemma AnimalTotalIgnoresItems(result: PredictionResult, items: Option<seq<Option<ItemAnalysis>>>)
    ensures result.(items := items).TotalEstimatedAnimalCount() == result.TotalEstimatedAnimalCount()
    ensures result.summary.None? ==> result.TotalEstimatedAnimalCount() == 0.0
  {
  }

  /** A result contains animal products exactly when, ignoring any summary
      block, it counts at least one item. */
  lemma AnimalProductsIffItemsCounted(result: PredictionResult)
    ensures result.ContainsAnimalProducts() <==> result.(summary := None).TotalItems() > 0
  {
  }

  /** `UsageMetadata`: token counts, only logged. */
  datatype UsageMetadata = UsageMetadata(promptTokenCount: int, candidatesTokenCount: int, totalTokenCount: int)

  /** `Part`. */
  datatype Part = Part(text: Option<string>)

  /** `Content`. */
  datatype Content = Content(parts: Option<seq<Option<Part>>>)

  /** `Candidate`. */
  datatype Candidate = Candidate(content: Option<Content>)

  /** `GeminiResponse`: the provider's wrapper around the application JSON. */
  datatype GeminiResponse = GeminiResponse(
    candidates: Option<seq<Option<Candidate>>>,
    usageMetadata: Option<UsageMetadata>)
}

=== FILE: json_escape.dfy ===
/**
 * Escaping of the prompt before it is spliced between the quotes of the
 * `"text"` field of the hand-built Gemini request body
 * (Assets/Scripts/Gemini/GeminiClient.cs:294-301).
 *
 * `EscapeAsWritten` is the source's chain of three `Replace` calls. It does
 * not escape the backslash, so a prompt ending in `\` turns the closing quote
 * of the field into an escaped quote. `Escape` is the corrected escaper: it
 * produces a JSON string body (section 7 of RFC 8259) that `Unescape`, a
 * decoder for such bodies, maps back to the prompt minus its carriage
 * returns, which the source deliberately drops.
 */
module JsonEscape {
  import opened Wrappers

  /** `s.Replace(c.ToString(), rep)`: every occurrence of `c` becomes `rep`. */
  function ReplaceChar(s: string, c: char, rep: string): string
    decreases |s|
  {
    if |s| == 0 then ""
    else (if s[0] == c then rep else [s[0]]) + ReplaceChar(s[1..], c, rep)
  }

  /** The prompt with its carriage returns removed. */
  function StripCR(s: string): string {
    ReplaceChar(s, '\r', "")
  }

  /** The escaping exactly as the source writes it: quote, then newline,
      then carriage return. */
  function EscapeAsWritten(s: string): (r: string)
    ensures '\n' !in r && '\r' !in r
  {
    var q := ReplaceChar(s, '"', "\\\"");
    var n := ReplaceChar(q, '\n', "\\n");
    ReplaceRemoves(q, '\n', "\\n");
    ReplaceRemoves(n, '\r', "");
    ReplaceAbsent(n, '\r', "", '\n');
    ReplaceChar(n, '\r', "")
  }

  /** The hexadecimal digit for `d` (upper case). */
  function HexDigit(d: nat): char
    requires d < 16
  {
    "0123456789ABCDEF"[d]
  }

  /** The escaped form of one character in the corrected escaper. */
  function EscapeChar(c: char): string {
    if c == '"' then "\\\""
    else if c == '\\' then "\\\\"
    else if c == '\n' then "\\n"
    else if c == '\r' then ""
    else if (c as int) < 0x20 then "\\u00" + [HexDigit(c as int / 16), HexDigit(c as int % 16)]
    else [c]
  }

  /** The corrected escaper: like the source it turns newlines into `\n` and
      drops carriage returns, and it also escapes backslashes and the other
      control characters. */
  function Escape(s: string): (r: string)
    ensures '\n' !in r && '\r' !in r
    decreases |s|
  {
    if |s| == 0 then ""
    else
      EscapeCharHasNoLineBreak(s[0]);
      EscapeChar(s[0]) + Escape(s[1..])
  }

  /** No escaped character contains a raw line break. */
  lemma EscapeCharHasNoLineBreak(c: char)
    ensures '\n' !in EscapeChar(c) && '\r' !in EscapeChar(c)
  {
    if (c as int) < 0x20 && c != '\n' && c != '\r' {
      var e := "\\u00" + [HexDigit(c as int / 16), HexDigit(c as int % 16)];
      assert forall k | 0 <= k < |e| :: e[k] != '\n' && e[k] != '\r';
    }
  }

  /** The value of a hexadecimal digit, either case. */
  function HexValue(c: char): Option<nat> {
    if '0' <= c <= '9' then Some(c as int - '0' as int)
    else if 'a' <= c <= 'f' then Some(c as int - 'a' as int + 10)
    else if 'A' <= c <= 'F' then Some(c as int - 'A' as int + 10)
    else None
  }

  /** The value of four hexadecimal digits. */
  function Hex4(e: string): Option<nat>
    requires |e| == 4
  {
    match (HexValue(e[0]), HexValue(e[1]), HexValue(e[2]), HexValue(e[3]))
    case (Some(a), Some(b), Some(c), Some(d)) => Some(((a * 16 + b) * 16 + c) * 16 + d)
    case _ => None
  }

  /** The character denoted by a one-letter escape `\x`. */
  function SimpleEscape(x: char): Option<char> {
    if x == '"' then Some('"')
    else if x == '\\' then Some('\\')
    else if x == '/' then Some('/')
    else if x == 'b' then Some('\U{0008}')
    else if x == 'f' then Some('\U{000C}')
    else if x == 'n' then Some('\n')
    else if x == 'r' then Some('\r')
    else if x == 't' then Some('\t')
    else None
  }

  /** Prepends a character to a decoded string, propagating failure. */
  function Cons(c: char, rest: Option<string>): Option<string> {
    match rest
    case Some(r) => Some([c] + r)
    case None => None
  }

  /** Decoder for the body of a JSON string (section 7 of RFC 8259): an
      unescaped quote or control character, a dangling backslash or an
      unknown escape is rejected. A `\u` escape naming a UTF-16 surrogate is
      rejected too, since surrogate pairs are not modelled. */
  function Unescape(e: string): Option<string>
    decreases |e|
  {
    if |e| == 0 then Some("")
    else if e[0] == '"' || (e[0] as int) < 0x20 then None
    else if e[0] != '\\' then Cons(e[0], Unescape(e[1..]))
    else if |e| < 2 then None
    else if e[1] == 'u' then
      if |e| < 6 then None
      else match Hex4(e[2..6])
        case None => None
        case Some(v) =>
          if v < 0xD800 || 0xE000 <= v < 0x11_0000 then Cons(v as char, Unescape(e[6..]))
          else None
    else match SimpleEscape(e[1])
      case None => None
      case Some(c) => Cons(c, Unescape(e[2..]))
  }

  // ---------------------------------------------------------------------------
  // Lemmas
  // ---------------------------------------------------------------------------

  /** Replacing `c` by a text without `c` removes every `c`. */
  lemma {:induction false} ReplaceRemoves(s: string, c: char, rep: string)
    requires c !in rep
    ensures c !in ReplaceChar(s, c, rep)
    decreases |s|
  {
    if |s| > 0 {
      ReplaceRemoves(s[1..], c, rep);
    }
  }

  /** Replacing `c` introduces no character absent from both the text and the
      replacement. */
  lemma {:induction false} ReplaceAbsent(s: string, c: char, rep: string, d: char)
    requires d !in s && d !in rep
    ensures d !in ReplaceChar(s, c, rep)
    decreases |s|
  {
    if |s| > 0 {
      assert d !in s[1..];
      ReplaceAbsent(s[1..], c, rep, d);
    }
  }

  /** Replacement distributes over concatenation. */
  lemma {:induction false} ReplaceAppend(a: string, b: string, c: char, rep: string)
    ensures ReplaceChar(a + b, c, rep) == ReplaceChar(a, c, rep) + ReplaceChar(b, c, rep)
    decreases |a|
  {
    if |a| == 0 {
      assert a + b == b;
    } else {
      assert (a + b)[1..] == a[1..] + b;
      ReplaceAppend(a[1..], b, c, rep);
    }
  }

  /** Decoding the escape of one character yields that character (nothing
      for a carriage return) followed by the decoding of what comes after. */
  lemma UnescapeEscapeChar(c: char, rest: string)
    ensures Unescape(EscapeChar(c) + rest)
         == if c == '\r' then Unescape(rest) else Cons(c, Unescape(rest))
  {
    var e := EscapeChar(c) + rest;
    if c == '"' || c == '\\' || c == '\n' {
      assert e[2..] == rest;
    } else if c == '\r' {
      assert e == rest;
    } else if (c as int) < 0x20 {
      UnescapeControlChar(c, rest);
    } else {
      assert e[1..] == rest;
    }
  }

  /** The `\u00XX` case of `UnescapeEscapeChar`. */
  lemma UnescapeControlChar(c: char, rest: string)
    requires (c as int) < 0x20 && c != '\n' && c != '\r'
    ensures Unescape(EscapeChar(c) + rest) == Cons(c, Unescape(rest))
  {
    var hi, lo := c as int / 16, c as int % 16;
    var e := EscapeChar(c) + rest;
    assert EscapeChar(c) == "\\u00" + [HexDigit(hi), HexDigit(lo)];
    assert e[0] == '\\' && e[1] == 'u' && |e| >= 6;
    assert e[2..6] == ['0', '0', HexDigit(hi), HexDigit(lo)];
    HexDigitValue(hi);
    HexDigitValue(lo);
    assert Hex4(e[2..6]) == Some(c as int);
    assert e[6..] == rest;
  }

  /** `HexValue` inverts `HexDigit`. */
  lemma HexDigitValue(d: nat)
    requires d < 16
    ensures HexValue(HexDigit(d)) == Some(d)
  {
  }

  /** Round trip: the corrected escape decodes back to the prompt without its
      carriage returns. */
  lemma {:induction false} UnescapeEscape(s: string)
    ensures Unescape(Escape(s)) == Some(StripCR(s))
    decreases |s|
  {
    if |s| > 0 {
      UnescapeEscape(s[1..]);
      UnescapeEscapeChar(s[0], Escape(s[1..]));
      assert Escape(s) == EscapeChar(s[0]) + Escape(s[1..]);
      if s[0] == '\r' {
        assert StripCR(s) == "" + StripCR(s[1..]) == StripCR(s[1..]);
      } else {
        assert StripCR(s) == [s[0]] + StripCR(s[1..]);
      }
    }
  }

  /** On prompts without backslashes and without control characters other
      than newline and carriage return, the source's escaping agrees with the
      corrected one. */
  lemma {:induction false} EscapeAsWrittenAgrees(s: string)
    requires forall i :: 0 <= i < |s| ==> s[i] != '\\'
    requires forall i :: 0 <= i < |s| ==> (s[i] as int) >= 0x20 || s[i] == '\n' || s[i] == '\r'
    ensures EscapeAsWritten(s) == Escape(s)
    decreases |s|
  {
    if |s| > 0 {
      var head, tail := s[..1], s[1..];
      assert s == head + tail;
      EscapeAsWrittenAgrees(tail);
      var q1, q2 := ReplaceChar(head, '"', "\\\""), ReplaceChar(tail, '"', "\\\"");
      ReplaceAppend(head, tail, '"', "\\\"");
      var n1, n2 := ReplaceChar(q1, '\n', "\\n"), ReplaceChar(q2, '\n', "\\n");
      ReplaceAppend(q1, q2, '\n', "\\n");
      ReplaceAppend(n1, n2, '\r', "");
      EscapeAsWrittenAgreesOnChar(s[0]);
    }
  }

  /** The single-character case of `EscapeAsWrittenAgrees`. */
  lemma EscapeAsWrittenAgreesOnChar(c: char)
    requires c != '\\' && ((c as int) >= 0x20 || c == '\n' || c == '\r')
    ensures ReplaceChar(ReplaceChar(ReplaceChar([c], '"', "\\\""), '\n', "\\n"), '\r', "") == EscapeChar(c)
  {
    ReplaceOne(c, '"', "\\\"");
    var q := if c == '"' then "\\\"" else [c];
    if c == '"' {
      ReplaceNoOp(q, '\n', "\\n");
      ReplaceNoOp(q, '\r', "");
    } else {
      ReplaceOne(c, '\n', "\\n");
      var n := if c == '\n' then "\\n" else [c];
      if c == '\n' {
        ReplaceNoOp(n, '\r', "");
      } else {
        ReplaceOne(c, '\r', "");
      }
    }
  }

  /** Replacing in a one-character text. */
  lemma ReplaceOne(c: char, d: char, rep: string)
    ensures ReplaceChar([c], d, rep) == if c == d then rep else [c]
  {
    assert [c][1..] == [];
  }

  /** Replacing a character the text lacks changes nothing. */
  lemma {:induction false} ReplaceNoOp(s: string, d: char, rep: string)
    requires d !in s
    ensures ReplaceChar(s, d, rep) == s
    decreases |s|
  {
    if |s| > 0 {
      ReplaceNoOp(s[1..], d, rep);
      assert s == [s[0]] + s[1..];
    }
  }

  /** The prompts the source's escaping handles: no backslash, and no
      control character other than newline and carriage return. */
  predicate SafeForAsWritten(s: string) {
    forall i :: 0 <= i < |s| ==> s[i] != '\\' && ((s[i] as int) >= 0x20 || s[i] == '\n' || s[i] == '\r')
  }

  /** On the prompts it handles, the source's escaping yields a JSON string
      body that reads back as the prompt minus its carriage returns. */
  lemma EscapeAsWrittenRoundTrip(s: string)
    ensures SafeForAsWritten(s) ==> Unescape(EscapeAsWritten(s)) == Some(StripCR(s))
  {
    if SafeForAsWritten(s) {
      EscapeAsWrittenAgrees(s);
      UnescapeEscape(s);
    }
  }

  /** The source's escaping is not a JSON string body for the one-character
      prompt `\`: spliced before the closing quote it escapes that quote. */
  lemma EscapeAsWrittenBreaksOnBackslash()
    ensures EscapeAsWritten("\\") == "\\"
    ensures Unescape(EscapeAsWritten("\\")) == None
    ensures Unescape(Escape("\\")) == Some("\\")
  {
    UnescapeEscape("\\");
    assert StripCR("\\") == "\\";
  }
}

=== FILE: material_cache.dfy ===
/**
 * The local material cache of the Gemini client
 * (Assets/Scripts/Gemini/GeminiClient.cs:95-176): an ordered, append-only list
 * of (material name, production summary) entries keyed case-insensitively,
 * where the first entry for a name wins.
 *
 * Saving the cache to disk is represented by the `saved` flag of an
 * insertion; the file contents are not modelled.
 */
module MaterialCache {
  import opened Wrappers
  import opened Text

  /** `MaterialCacheEntry`. */
  datatype Entry = Entry(materialName: string, productionSummary: string)

  /** `localCache`: `None` while no cache has been loaded. */
  type Cache = Option<seq<Entry>>

  /** Some entry's name equals `name`, ignoring case. */
  predicate HasName(entries: seq<Entry>, name: string) {
    exists j :: 0 <= j < |entries| && SameIgnoringCase(entries[j].materialName, name)
  }

  /** The cache invariant: no two names equal ignoring case, and no empty
      name or summary. */
  predicate WellFormed(entries: seq<Entry>) {
    && (forall i, j :: 0 <= i < j < |entries| ==>
          !SameIgnoringCase(entries[i].materialName, entries[j].materialName))
    && (forall i :: 0 <= i < |entries| ==>
          |entries[i].materialName| > 0 && |entries[i].productionSummary| > 0)
  }

  /** Position of the first entry whose name equals `name` ignoring case. */
  function FirstMatch(entries: seq<Entry>, name: string): (r: Option<nat>)
    ensures r.Some? ==> r.value < |entries|
    ensures r.Some? ==> SameIgnoringCase(entries[r.value].materialName, name)
    ensures r.Some? ==> forall j :: 0 <= j < r.value ==> !SameIgnoringCase(entries[j].materialName, name)
    ensures r.None? <==> !HasName(entries, name)
    decreases |entries|
  {
    if |entries| == 0 then None
    else if SameIgnoringCase(entries[0].materialName, name) then Some(0)
    else match FirstMatch(entries[1..], name)
      case None =>
        assert forall j :: 1 <= j < |entries| ==> entries[j] == entries[1..][j - 1];
        None
      case Some(k) =>
        assert entries[k + 1] == entries[1..][k];
        assert forall j :: 1 <= j < k + 1 ==> entries[j] == entries[1..][j - 1];
        Some(k + 1)
  }

  /** `GetCachedSummary`: nothing for an unloaded cache or an empty name,
      otherwise the summary of the first entry with that name. */
  function GetCachedSummary(cache: Cache, material: Option<string>): (r: Option<string>)
    ensures cache.None? || IsNullOrEmpty(material) ==> r.None?
    ensures cache.Some? && !IsNullOrEmpty(material) ==>
      (r.Some? <==> HasName(cache.value, material.value))
    ensures r.Some? ==>
      exists j ::
        && 0 <= j < |cache.value|
        && SameIgnoringCase(cache.value[j].materialName, material.value)
        && r.value == cache.value[j].productionSummary
        && (forall k :: 0 <= k < j ==> !SameIgnoringCase(cache.value[k].materialName, material.value))
  {
    if cache.None? || IsNullOrEmpty(material) then None
    else match FirstMatch(cache.value, material.value)
      case None => None
      case Some(j) => Some(cache.value[j].productionSummary)
  }

  /** The cache after an insertion attempt, and whether it was saved. */
  datatype AddOutcome = AddOutcome(cache: Cache, saved: bool)

  /** `AddToCache`: a no-op for an unloaded cache, an empty name or summary,
      or a name already present ignoring case; otherwise one entry is
      appended and the cache is saved. */
  function AddToCache(cache: Cache, material: Option<string>, summary: Option<string>): (r: AddOutcome)
    ensures cache.None? || IsNullOrEmpty(material) || IsNullOrEmpty(summary)
            || HasName(cache.value, material.value)
        ==> r == AddOutcome(cache, false)
    ensures cache.Some? && !IsNullOrEmpty(material) && !IsNullOrEmpty(summary)
            && !HasName(cache.value, material.value)
        ==> r.saved
    ensures r.saved <==> r.cache != cache
    ensures r.saved ==> r.cache == Some(cache.value + [Entry(material.value, summary.value)])
  {
    if cache.None? || IsNullOrEmpty(material) || IsNullOrEmpty(summary) then AddOutcome(cache, false)
    else if HasName(cache.value, material.value) then AddOutcome(cache, false)
    else AddOutcome(Some(cache.value + [Entry(material.value, summary.value)]), true)
  }

  // ---------------------------------------------------------------------------
  // Lemmas
  // ---------------------------------------------------------------------------

  /** Insertion keeps the cache invariant. */
  lemma AddToCacheKeepsWellFormed(cache: Cache, material: Option<string>, summary: Option<string>)
    requires cache.Some? && WellFormed(cache.value)
    ensures AddToCache(cache, material, summary).cache.Some?
    ensures WellFormed(AddToCache(cache, material, summary).cache.value)
  {
    var r := AddToCache(cache, material, summary);
    if r.saved {
      var e := r.cache.value;
      forall i, j | 0 <= i < j < |e|
        ensures !SameIgnoringCase(e[i].materialName, e[j].materialName)
      {
        if j == |e| - 1 {
          assert e[i] == cache.value[i];
        }
      }
    }
  }

  /** A name already present keeps its summary when entries are appended:
      lookup only ever sees the first writer. */
  lemma LookupStableUnderAppend(entries: seq<Entry>, extra: seq<Entry>, name: string)
    requires |name| > 0 && HasName(entries, name)
    ensures GetCachedSummary(Some(entries + extra), Some(name)) == GetCachedSummary(Some(entries), Some(name))
  {
    var j := FirstMatch(entries, name).value;
    assert (entries + extra)[j] == entries[j];
    assert HasName(entries + extra, name);
  }

  /** Round trip: after a successful insertion the name looks up to the new
      summary; after a refused one the lookup is what it was. Any other name
      looks up as before. */
  lemma LookupAfterAdd(entries: seq<Entry>, material: string, summary: string, other: string)
    requires |material| > 0 && |summary| > 0 && |other| > 0
    ensures GetCachedSummary(AddToCache(Some(entries), Some(material), Some(summary)).cache, Some(material))
         == if HasName(entries, material) then GetCachedSummary(Some(entries), Some(material)) else Some(summary)
    ensures !SameIgnoringCase(other, material) ==>
              (GetCachedSummary(AddToCache(Some(entries), Some(material), Some(summary)).cache, Some(other))
               == GetCachedSummary(Some(entries), Some(other)))
  {
    var e' := entries + [Entry(material, summary)];
    if !HasName(entries, material) {
      assert e'[|entries|].materialName == material;
      assert HasName(e', material);
      if !SameIgnoringCase(other, material) {
        if HasName(entries, other) {
          LookupStableUnderAppend(entries, [Entry(material, summary)], other);
        } else {
          assert !SameIgnoringCase(e'[|entries|].materialName, other);
          assert !HasName(e', other) by {
            forall j | 0 <= j < |e'| ensures !SameIgnoringCase(e'[j].materialName, other) {
              if j < |entries| { assert e'[j] == entries[j]; }
            }
          }
        }
      }
    }
  }

  /** "Leather" followed by "leather" leaves a single entry and a single save. */
  lemma AddLeatherTwice()
    ensures AddToCache(Some([]), Some("Leather"), Some("Tanned hide")).saved
    ensures AddToCache(AddToCache(Some([]), Some("Leather"), Some("Tanned hide")).cache,
                       Some("leather"), Some("Other text"))
         == AddOutcome(Some([Entry("Leather", "Tanned hide")]), false)
  {
    var c: Cache := Some([Entry("Leather", "Tanned hide")]);
    assert [] + [Entry("Leather", "Tanned hide")] == c.value;
    assert Lower("Leather") == Lower("leather");
    assert SameIgnoringCase(c.value[0].materialName, "leather");
  }
}

=== FILE: openai_controller.dfy ===
/**
 * The OpenAI path (Assets/Scripts/OpenAI/OpenAIController.cs): the guard on
 * the image bytes, the shape of the Responses API request, and the
 * extraction of the model's `output_text` from the response with its
 * fallback to the raw response text.
 *
 * `JsonUtility.FromJson` is a parameter of the parsing members: `None` stands
 * for a decode that threw, or, for the response root, one that returned
 * null (whose `output` is then dereferenced and throws as well). The parsed analysis is a type parameter `A`,
 * since its contents are only handed on to the user interface.
 */
module OpenAIController {
  import opened Wrappers
  import opened Bytes
  import opened Text

  // ---------------------------------------------------------------------------
  // Request
  // ---------------------------------------------------------------------------

  /** One content element of an input item (`type` is a Dafny keyword). */
  datatype InputContent = InputContent(kind: Option<string>, text: Option<string>)

  /** One input item: a message with content, or an image reference. */
  datatype InputItem = InputItem(
    kind: Option<string>,
    role: Option<string>,
    content: Option<seq<InputContent>>,
    imageUrl: Option<string>)

  /** The body of a Responses API request. */
  datatype OpenAIRequest = OpenAIRequest(
    model: string,
    temperature: real,
    maxOutputTokens: int,
    input: seq<InputItem>)

  const RequestModel := "gpt-4.1"
  const RequestTemperature: real := 0.1
  const RequestMaxOutputTokens := 400

  /** The request built for a prompt: a user message carrying the prompt
      as `input_text`, then an `input_image` item whose URL is never set. */
  function BuildRequest(analysisPrompt: Option<string>): (r: OpenAIRequest)
    ensures r.model == RequestModel && r.temperature == RequestTemperature
    ensures r.maxOutputTokens == RequestMaxOutputTokens
    ensures |r.input| == 2
    ensures r.input[0].kind == Some("message") && r.input[0].role == Some("user")
    ensures r.input[0].imageUrl.None?
    ensures r.input[0].content.Some? && |r.input[0].content.value| == 1
    ensures r.input[0].content.value[0] == InputContent(Some("input_text"), analysisPrompt)
    ensures r.input[1].kind == Some("input_image") && r.input[1].imageUrl.None?
    ensures r.input[1].role.None? && r.input[1].content.None?
  {
    OpenAIRequest(
      RequestModel, RequestTemperature, RequestMaxOutputTokens,
      [ InputItem(Some("message"), Some("user"), Some([InputContent(Some("input_text"), analysisPrompt)]), None),
        InputItem(Some("input_image"), None, None, None) ])
  }

  /** The text of the first `input_text` content of the first user message
      among `items`, if any: what a server reads as the prompt. */
  function PromptIn(items: seq<InputItem>): (r: Option<Option<string>>)
    decreases |items|
  {
    if |items| == 0 then None
    else
      var first := items[0];
      if first.kind == Some("message") && first.role == Some("user")
         && first.content.Some? && |first.content.value| > 0
         && first.content.value[0].kind == Some("input_text")
      then Some(first.content.value[0].text)
      else PromptIn(items[1..])
  }

  /** The prompt a request carries. */
  function PromptOf(req: OpenAIRequest): Option<Option<string>> {
    PromptIn(req.input)
  }

  /** The prompt travels unchanged in the request. */
  lemma PromptRoundTrip(analysisPrompt: Option<string>)
    ensures PromptOf(BuildRequest(analysisPrompt)) == Some(analysisPrompt)
  {
  }

  /** `SendImage`: no request for missing or empty image bytes. */
  function SendImage(imageBytes: Option<seq<byte>>, analysisPrompt: Option<string>): (r: Option<OpenAIRequest>)
    ensures r.None? <==> imageBytes.None? || |imageBytes.value| == 0
    ensures r.Some? ==> PromptOf(r.value) == Some(analysisPrompt)
  {
    PromptRoundTrip(analysisPrompt);
    if imageBytes.None? || |imageBytes.value| == 0 then None
    else Some(BuildRequest(analysisPrompt))
  }

  // ---------------------------------------------------------------------------
  // Response
  // ---------------------------------------------------------------------------

  /** One content element of an output. */
  datatype AIContent = AIContent(kind: Option<string>, text: Option<string>)

  /** One output of the response. */
  datatype AIOutput = AIOutput(content: Option<seq<Option<AIContent>>>)

  /** The response root. */
  datatype AIResponseRoot = AIResponseRoot(output: Option<seq<Option<AIOutput>>>)

  /** What the inner loop over one output's contents finds: a null
      dereference, no `output_text`, or the text of the first one. */
  datatype ContentScan = Fault | NotFound | Found(text: Option<string>)

  /** The scan of a content list, stopping at the first `output_text`. */
  function ScanContents(contents: seq<Option<AIContent>>): (r: ContentScan)
    ensures r.Found? <==> exists k | 0 <= k < |contents| :: IsOutputText(contents, k)
    ensures r.Found? ==> exists k | 0 <= k < |contents| :: IsOutputText(contents, k) && r.text == contents[k].value.text
    ensures r.Fault? <==> exists k | 0 <= k < |contents| :: contents[k].None? && NoOutputTextBefore(contents, k)
  {
    if |contents| == 0 then NotFound
    else if contents[0].None? then Fault
    else if contents[0].value.kind == Some("output_text") then
      assert IsOutputText(contents, 0);
      Found(contents[0].value.text)
    else
      ScanContentsTail(contents);
      ScanContents(contents[1..])
  }

  /** Past a leading content of another type, the positions of the first
      `output_text` and of a null before it shift by one. */
  lemma ScanContentsTail(contents: seq<Option<AIContent>>)
    requires |contents| > 0 && contents[0].Some? && contents[0].value.kind != Some("output_text")
    ensures (exists k | 0 <= k < |contents| :: IsOutputText(contents, k))
        <==> (exists k | 0 <= k < |contents| - 1 :: IsOutputText(contents[1..], k))
    ensures forall k | 0 <= k < |contents| - 1 :: IsOutputText(contents, k + 1) <==> IsOutputText(contents[1..], k)
    ensures (exists k | 0 <= k < |contents| :: contents[k].None? && NoOutputTextBefore(contents, k))
        <==> (exists k | 0 <= k < |contents| - 1 :: contents[1..][k].None? && NoOutputTextBefore(contents[1..], k))
  {
    var tail := contents[1..];
    assert forall k | 0 <= k < |tail| :: NoOutputTextBefore(contents, k + 1) <==> NoOutputTextBefore(tail, k) by {
      forall k | 0 <= k < |tail|
        ensures NoOutputTextBefore(contents, k + 1) <==> NoOutputTextBefore(tail, k)
      {
        assert forall m | 1 <= m < k + 1 :: contents[m] == tail[m - 1];
      }
    }
    if exists k | 0 <= k < |contents| :: IsOutputText(contents, k) {
      var k :| 0 <= k < |contents| && IsOutputText(contents, k);
      assert k != 0;
      assert IsOutputText(tail, k - 1);
    }
    if exists k | 0 <= k < |tail| :: IsOutputText(tail, k) {
      var k :| 0 <= k < |tail| && IsOutputText(tail, k);
      assert IsOutputText(contents, k + 1);
    }
    if exists k | 0 <= k < |contents| :: contents[k].None? && NoOutputTextBefore(contents, k) {
      var k :| 0 <= k < |contents| && contents[k].None? && NoOutputTextBefore(contents, k);
      assert k != 0;
      assert tail[k - 1].None? && NoOutputTextBefore(tail, k - 1);
    }
    if exists k | 0 <= k < |tail| :: tail[k].None? && NoOutputTextBefore(tail, k) {
      var k :| 0 <= k < |tail| && tail[k].None? && NoOutputTextBefore(tail, k);
      assert contents[k + 1].None? && NoOutputTextBefore(contents, k + 1);
    }
  }

  /** Element `k` is the first non-null `output_text` content and nothing
      before it is null. */
  predicate IsOutputText(contents: seq<Option<AIContent>>, k: int)
    requires 0 <= k < |contents|
  {
    contents[k].Some? && contents[k].value.kind == Some("output_text") && NoOutputTextBefore(contents, k)
  }

  /** Every element before `k` is a non-null content of another type. */
  predicate NoOutputTextBefore(contents: seq<Option<AIContent>>, k: int)
    requires 0 <= k <= |contents|
  {
    forall m | 0 <= m < k :: contents[m].Some? && contents[m].value.kind != Some("output_text")
  }

  /** The scan of one output: a null output or content list faults. */
  function ScanOutput(o: Option<AIOutput>): ContentScan {
    if o.None? || o.value.content.None? then Fault else ScanContents(o.value.content.value)
  }

  /** Output `j` is the last of the first `n` outputs holding an
      `output_text`. */
  predicate LastHitBelow(outputs: seq<Option<AIOutput>>, n: int, j: int) {
    && 0 <= j < n <= |outputs|
    && ScanOutput(outputs[j]).Found?
    && forall k | j < k < n :: !ScanOutput(outputs[k]).Found?
  }

  /** Output `j` is the last one holding an `output_text`. */
  predicate LastHitAt(outputs: seq<Option<AIOutput>>, j: int) {
    LastHitBelow(outputs, |outputs|, j)
  }

  /** Some output holds an `output_text`. */
  predicate AnyHit(outputs: seq<Option<AIOutput>>) {
    exists j | 0 <= j < |outputs| :: ScanOutput(outputs[j]).Found?
  }

  /** The outcome of the two `foreach` loops. */
  datatype Extraction = Extracted(jsonText: Option<string>) | NullDereference

  /** The loops of `ParseAndDisplay`: the inner loop keeps the first
      `output_text` of an output, the outer loop lets a later output
      overwrite it, and an output without one leaves it as it was. */
  method ExtractOutputText(outputs: seq<Option<AIOutput>>) returns (r: Extraction)
    ensures r.NullDereference? <==> exists j | 0 <= j < |outputs| :: ScanOutput(outputs[j]).Fault?
    ensures r.Extracted? && !AnyHit(outputs) ==> r.jsonText.None?
    ensures r.Extracted? && AnyHit(outputs) ==>
      exists j | 0 <= j < |outputs| && LastHitAt(outputs, j) :: r.jsonText == ScanOutput(outputs[j]).text
  {
    var jsonText: Option<string> := None;
    ghost var last := -1;
    var i := 0;
    while i < |outputs|
      invariant 0 <= i <= |outputs|
      invariant -1 <= last < i
      invariant forall j | 0 <= j < i :: !ScanOutput(outputs[j]).Fault?
      invariant last == -1 ==> jsonText.None? && forall j | 0 <= j < i :: !ScanOutput(outputs[j]).Found?
      invariant last >= 0 ==> LastHitBelow(outputs, i, last) && jsonText == ScanOutput(outputs[last]).text
    {
      if outputs[i].None? || outputs[i].value.content.None? {
        return NullDereference;
      }
      var contents := outputs[i].value.content.value;
      ghost var found := false;
      var k := 0;
      while k < |contents|
        invariant 0 <= k <= |contents|
        invariant !found ==> NoOutputTextBefore(contents, k)
        invariant found ==> ScanOutput(outputs[i]) == Found(jsonText)
      {
        if contents[k].None? {
          assert contents[k].None? && NoOutputTextBefore(contents, k);
          return NullDereference;
        }
        if contents[k].value.kind == Some("output_text") {
          jsonText := contents[k].value.text;
          assert IsOutputText(contents, k);
          found := true;
          break;
        }
        k := k + 1;
      }
      if found {
        last := i;
      } else {
        assert k == |contents|;
        ScanContentsClean(contents);
      }
      i := i + 1;
    }
    r := Extracted(jsonText);
  }

  /** A content list with no null and no `output_text` scans to `NotFound`. */
  lemma ScanContentsClean(contents: seq<Option<AIContent>>)
    requires NoOutputTextBefore(contents, |contents|)
    ensures ScanContents(contents) == NotFound
  {
  }

  /** There is at most one last hit. */
  lemma LastHitUnique(outputs: seq<Option<AIOutput>>, j: int, k: int)
    requires LastHitAt(outputs, j) && LastHitAt(outputs, k)
    ensures j == k
  {
  }

  /** What `ParseAndDisplay` hands to the user interface. */
  datatype Display<A> = StructuredResult(result: A) | RawFallback(raw: string)

  /** The text `ParseAndDisplay` decodes as the analysis, when the response
      decodes, every output scans without a null, and the last output with
      an `output_text` carries a non-empty one. */
  predicate ExtractsText(root: Option<AIResponseRoot>, text: string) {
    && root.Some? && root.value.output.Some?
    && (forall j | 0 <= j < |root.value.output.value| :: !ScanOutput(root.value.output.value[j]).Fault?)
    && exists j | 0 <= j < |root.value.output.value| && LastHitAt(root.value.output.value, j) ::
         ScanOutput(root.value.output.value[j]).text == Some(text)
  }

  /** Once the loops complete, the text they leave is the one text
      `ExtractsText` describes. */
  lemma ExtractsTextExactly(root: Option<AIResponseRoot>, jsonText: Option<string>)
    requires root.Some? && root.value.output.Some?
    requires forall j | 0 <= j < |root.value.output.value| :: !ScanOutput(root.value.output.value[j]).Fault?
    requires !AnyHit(root.value.output.value) ==> jsonText.None?
    requires AnyHit(root.value.output.value) ==>
      exists j | 0 <= j < |root.value.output.value| && LastHitAt(root.value.output.value, j) ::
        jsonText == ScanOutput(root.value.output.value[j]).text
    ensures forall text :: ExtractsText(root, text) <==> jsonText == Some(text)
  {
    var outputs := root.value.output.value;
    forall text
      ensures ExtractsText(root, text) <==> jsonText == Some(text)
    {
      if ExtractsText(root, text) {
        var j :| 0 <= j < |outputs| && LastHitAt(outputs, j) && ScanOutput(outputs[j]).text == Some(text);
        assert AnyHit(outputs);
        var k :| 0 <= k < |outputs| && LastHitAt(outputs, k) && jsonText == ScanOutput(outputs[k]).text;
        LastHitUnique(outputs, j, k);
      }
    }
  }

  /** `ParseAndDisplay`: the structured result when the extracted text is
      non-empty and decodes; the raw response in every other case. */
  method ParseAndDisplay<A>(
    rawResponse: string,
    decodeRoot: string -> Option<AIResponseRoot>,
    decodeResult: string -> Option<A>)
    returns (d: Display<A>)
    ensures d.StructuredResult? ==>
      exists text | ExtractsText(decodeRoot(rawResponse), text) ::
        |text| > 0 && decodeResult(text) == Some(d.result)
    ensures d.RawFallback? ==>
      && d.raw == rawResponse
      && forall text | ExtractsText(decodeRoot(rawResponse), text) ::
           |text| == 0 || decodeResult(text).None?
  {
    var root := decodeRoot(rawResponse);
    if root.None? || root.value.output.None? {
      return RawFallback(rawResponse);
    }
    var outputs := root.value.output.value;
    var e := ExtractOutputText(outputs);
    if e.NullDereference? {
      return RawFallback(rawResponse);
    }
    var jsonText := e.jsonText;
    ExtractsTextExactly(root, jsonText);
    if IsNullOrEmpty(jsonText) {
      return RawFallback(rawResponse);
    }
    var result := decodeResult(jsonText.value);
    if result.None? {
      return RawFallback(rawResponse);
    }
    d := StructuredResult(result.value);
  }

  /** The outcome of the web request. */
  datatype HttpResult = HttpSuccess(body: string) | HttpError(body: string)

  /** The tail of `UploadToFirebaseAndSend`: a failed request is logged and
      nothing is displayed; a successful one is parsed. */
  method HandleResponse<A>(
    response: HttpResult,
    decodeRoot: string -> Option<AIResponseRoot>,
    decodeResult: string -> Option<A>)
    returns (d: Option<Display<A>>)
    ensures d.None? <==> response.HttpError?
    ensures d.Some? && d.value.RawFallback? ==> d.value.raw == response.body
  {
    if response.HttpError? {
      return None;
    }
    var shown := ParseAndDisplay(response.body, decodeRoot, decodeResult);
    d := Some(shown);
  }
}

=== FILE: pagination.dfy ===
/**
 * Paging through the items of a Gemini result
 * (Assets/Scripts/Gemini/CameraManager.cs:333-407): `ShowResults` stores the
 * result and shows the first item, the arrow buttons step the index, and
 * `ShowItem` shows the arrows when the result reports more than one item.
 *
 * The source's `ShowResults` leaves the index (and the arrows) untouched when
 * the new result has no items, so a stale index can outlive the result it
 * belonged to. The `AsWritten` members model the source; `ShowResults`,
 * `Next` and `Previous` are the corrected pager, which resets the index on
 * every result and ignores the arrows when there are no items.
 */
module Pagination {
  import opened Wrappers
  import opened GeminiModel

  /** The pager state: the result last delivered, the current item index, and
      whether the arrow buttons are shown. */
  datatype Pager = Pager(result: Option<PredictionResult>, index: int, arrowsVisible: bool)

  /** The outcome of an arrow click: the item shown, nothing done, or an
      exception (null reference or index out of range). The exception only
      ends the click handler, so `Crashed` keeps the index and arrows as they
      stood when it was thrown. */
  datatype Nav = Shown(pager: Pager) | Ignored | Crashed(pager: Pager)

  /** The result is present and has a non-empty item array. */
  predicate HasItems(result: Option<PredictionResult>) {
    result.Some? && result.value.items.Some? && |result.value.items.value| > 0
  }

  /** The index designates an item of the current result. */
  predicate InBounds(p: Pager) {
    HasItems(p.result) && 0 <= p.index < |p.result.value.items.value|
  }

  /** `ShowItem(index)`, called once the caller has set the index: it reads
      `TotalItems` (throwing for a missing result), sets the arrows, and then
      reads `items[index]` (throwing for a missing item array or an index out
      of range). */
  function ShowItem(p: Pager, index: int): (n: Nav)
    ensures !n.Ignored?
    ensures !n.Crashed? <==>
      p.result.Some? && p.result.value.items.Some? && 0 <= index < |p.result.value.items.value|
    ensures n.pager.result == p.result && n.pager.index == index
    ensures p.result.Some? ==> (n.pager.arrowsVisible <==> p.result.value.TotalItems() > 1)
    ensures p.result.None? ==> n.pager.arrowsVisible == p.arrowsVisible
  {
    if p.result.None? then Crashed(p.(index := index))
    else
      var shown := Pager(p.result, index, p.result.value.TotalItems() > 1);
      if p.result.value.items.None? || !(0 <= index < |p.result.value.items.value|) then Crashed(shown)
      else Shown(shown)
  }

  // ---------------------------------------------------------------------------
  // As written
  // ---------------------------------------------------------------------------

  /** `ShowResults` as written: the first item is shown when there are items;
      otherwise only the stored result changes. */
  function ShowResultsAsWritten(p: Pager, result: Option<PredictionResult>): (q: Pager)
    ensures q.result == result
    ensures HasItems(result) ==> InBounds(q) && q.index == 0
    ensures !HasItems(result) ==> q.index == p.index && q.arrowsVisible == p.arrowsVisible
  {
    if HasItems(result) then ShowItem(Pager(result, 0, p.arrowsVisible), 0).pager
    else p.(result := result)
  }

  /** `OnNextItemClick` as written: `items.Length` throws before anything
      changes for a missing result or item array; below the last item the
      index is incremented and the item shown. */
  function NextAsWritten(p: Pager): (n: Nav)
    ensures p.result.None? || p.result.value.items.None? ==> n == Crashed(p)
    ensures p.result.Some? && p.result.value.items.Some? && p.index >= |p.result.value.items.value| - 1
        ==> n == Ignored
    ensures p.result.Some? && p.result.value.items.Some? && p.index < |p.result.value.items.value| - 1
        ==> !n.Ignored? && n.pager.result == p.result && n.pager.index == p.index + 1
            && (n.pager.arrowsVisible <==> p.result.value.TotalItems() > 1)
    ensures InBounds(p) ==> !n.Crashed?
    ensures InBounds(p) ==> (n.Shown? <==> p.index < |p.result.value.items.value| - 1)
    ensures InBounds(p) && n.Shown? ==> n.pager.index == p.index + 1 && InBounds(n.pager)
  {
    if p.result.None? || p.result.value.items.None? then Crashed(p)
    else if p.index < |p.result.value.items.value| - 1 then ShowItem(p, p.index + 1)
    else Ignored
  }

  /** `OnPreviousItemClick` as written: above 0 the index is decremented and
      the item shown, whatever the result holds. */
  function PreviousAsWritten(p: Pager): (n: Nav)
    ensures p.index <= 0 ==> n == Ignored
    ensures p.index > 0 ==> !n.Ignored? && n.pager.result == p.result && n.pager.index == p.index - 1
    ensures p.index > 0 && p.result.Some? ==> (n.pager.arrowsVisible <==> p.result.value.TotalItems() > 1)
    ensures InBounds(p) ==> !n.Crashed?
    ensures InBounds(p) ==> (n.Shown? <==> p.index > 0)
    ensures InBounds(p) && n.Shown? ==> n.pager.index == p.index - 1 && InBounds(n.pager)
  {
    if p.index > 0 then ShowItem(p, p.index - 1) else Ignored
  }

  /** After a three-item result was paged to its last item, a result without
      items keeps the index at 2 and the arrows visible, and "previous" then
      reads item 1 of an empty array. The handler is left at index 1 with the
      arrows hidden, since the empty result counts no items. */
  lemma StaleIndexCrash(item: ItemAnalysis)
    ensures
      var three := Some(PredictionResult(None, Some([Some(item), Some(item), Some(item)])));
      var atLast := Pager(three, 2, true);
      var empty := ShowResultsAsWritten(atLast, Some(PredictionResult(None, Some([]))));
      && InBounds(atLast)
      && empty.index == 2 && empty.arrowsVisible
      && PreviousAsWritten(empty) == Crashed(Pager(empty.result, 1, false))
  {
  }

  // ---------------------------------------------------------------------------
  // Corrected
  // ---------------------------------------------------------------------------

  /** The pager invariant: the index designates an item, or is zero when
      there are none. */
  predicate Consistent(p: Pager) {
    if HasItems(p.result) then InBounds(p) else p.index == 0
  }

  /** `ShowResults`, corrected to reset the index and the arrows on every
      result. */
  function ShowResults(p: Pager, result: Option<PredictionResult>): (q: Pager)
    ensures q.result == result && q.index == 0 && Consistent(q)
    ensures q.arrowsVisible ==> HasItems(result)
  {
    if HasItems(result) then ShowItem(Pager(result, 0, false), 0).pager
    else Pager(result, 0, false)
  }

  /** "Next", ignored when there are no items. */
  function Next(p: Pager): (n: Nav)
    ensures Consistent(p) ==> !n.Crashed?
    ensures Consistent(p) && n.Shown? ==> n.pager.index == p.index + 1 && InBounds(n.pager)
  {
    if !HasItems(p.result) then Ignored else NextAsWritten(p)
  }

  /** "Previous", ignored when there are no items. */
  function Previous(p: Pager): (n: Nav)
    ensures Consistent(p) ==> !n.Crashed?
    ensures Consistent(p) && n.Shown? ==> n.pager.index == p.index - 1 && InBounds(n.pager)
  {
    if !HasItems(p.result) then Ignored else PreviousAsWritten(p)
  }

  /** On a pager whose index is in bounds the corrected arrows behave exactly
      like the source's. */
  lemma CorrectedAgreesInBounds(p: Pager)
    requires InBounds(p)
    ensures Next(p) == NextAsWritten(p) && Previous(p) == PreviousAsWritten(p)
  {
  }

  /** The user-visible events. */
  datatype Event = ResultDelivered(result: Option<PredictionResult>) | NextClick | PreviousClick

  /** One event applied to the corrected pager. */
  function Apply(p: Pager, e: Event): (q: Pager)
    requires Consistent(p)
    ensures Consistent(q)
  {
    match e
    case ResultDelivered(result) => ShowResults(p, result)
    case NextClick => (match Next(p) case Shown(q) => q case _ => p)
    case PreviousClick => (match Previous(p) case Shown(q) => q case _ => p)
  }

  /** Any sequence of events keeps the corrected pager consistent; no click
      ever throws. */
  function Run(p: Pager, events: seq<Event>): (q: Pager)
    requires Consistent(p)
    ensures Consistent(q)
    ensures HasItems(q.result) ==> 0 <= q.index < |q.result.value.items.value|
    decreases |events|
  {
    if |events| == 0 then p else Run(Apply(p, events[0]), events[1..])
  }
}

=== FILE: reconcile.dfy ===
/**
 * The cache reconciliation pass run on a parsed result
 * (Assets/Scripts/Gemini/GeminiClient.cs:442-476): one forward pass over the
 * items that fills a missing production summary from the material cache, or
 * records a new summary in the cache when the material has none yet.
 */
module Reconciliation {
  import opened Wrappers
  import opened Text
  import opened MaterialCache
  import opened GeminiModel

  /** The outcome of reconciling one item: the item as left by the pass, the
      cache after it, and whether the cache was saved. */
  datatype ItemStep = ItemStep(item: Option<ItemAnalysis>, cache: Cache, saved: bool)

  /** The loop body for one item. */
  function ReconcileItem(item: Option<ItemAnalysis>, cache: Cache): (r: ItemStep)
    ensures r.item.None? <==> item.None?
    ensures item.Some? ==> r.item.value == item.value.(productionSummary := r.item.value.productionSummary)
    ensures r.item != item ==>
      && item.Some?
      && IsNullOrEmpty(item.value.productionSummary)
      && r.item.value.productionSummary == GetCachedSummary(cache, item.value.material)
      && !IsNullOrEmpty(r.item.value.productionSummary)
    ensures item.Some? && IsNullOrEmpty(item.value.productionSummary)
            && !IsNullOrEmpty(GetCachedSummary(cache, item.value.material))
        ==> r.item == Some(item.value.(productionSummary := GetCachedSummary(cache, item.value.material)))
    ensures r.saved <==> r.cache != cache
    ensures item.Some? && !IsNullOrEmpty(item.value.productionSummary) && !IsNullOrEmpty(item.value.material)
            && cache.Some? && !HasName(cache.value, item.value.material.value)
        ==> r.saved
    ensures r.saved ==>
      && item.Some?
      && !IsNullOrEmpty(item.value.productionSummary)
      && !IsNullOrEmpty(item.value.material)
      && cache.Some?
      && !HasName(cache.value, item.value.material.value)
      && r.cache == Some(cache.value + [Entry(item.value.material.value, item.value.productionSummary.value)])
  {
    match item
    case None => ItemStep(item, cache, false)
    case Some(it) =>
      if IsNullOrEmpty(it.productionSummary) then
        var cached := GetCachedSummary(cache, it.material);
        if !IsNullOrEmpty(cached) then ItemStep(Some(it.(productionSummary := cached)), cache, false)
        else ItemStep(item, cache, false)
      else if !IsNullOrEmpty(it.material) then
        if GetCachedSummary(cache, it.material).None? then
          var added := AddToCache(cache, it.material, it.productionSummary);
          ItemStep(item, added.cache, added.saved)
        else ItemStep(item, cache, false)
      else ItemStep(item, cache, false)
  }

  /** The result of the whole pass: the items, the final cache, and the
      number of times the cache was saved. */
  datatype Pass = Pass(items: seq<Option<ItemAnalysis>>, cache: Cache, writes: nat)

  /** Only the production summary of an item may change, and only from empty
      to non-empty. */
  predicate SummaryOnlyFilled(before: Option<ItemAnalysis>, after: Option<ItemAnalysis>) {
    && (after.None? <==> before.None?)
    && (before.Some? ==> after.value == before.value.(productionSummary := after.value.productionSummary))
    && (before.Some? && after != before ==>
          IsNullOrEmpty(before.value.productionSummary) && !IsNullOrEmpty(after.value.productionSummary))
  }

  /** The pass over all items, front to back. */
  function Reconcile(items: seq<Option<ItemAnalysis>>, cache: Cache): (r: Pass)
    ensures |r.items| == |items|
    ensures forall i :: 0 <= i < |items| ==> SummaryOnlyFilled(items[i], r.items[i])
    ensures cache.None? ==> r.cache.None? && r.writes == 0
    ensures cache.Some? ==> r.cache.Some? && cache.value <= r.cache.value
    ensures cache.Some? ==> r.writes == |r.cache.value| - |cache.value|
    ensures cache.Some? && WellFormed(cache.value) ==> WellFormed(r.cache.value)
    decreases |items|
  {
    if |items| == 0 then Pass([], cache, 0)
    else
      var step := ReconcileItem(items[0], cache);
      ReconcileItemKeepsWellFormed(items[0], cache);
      var rest := Reconcile(items[1..], step.cache);
      Pass([step.item] + rest.items, rest.cache, rest.writes + (if step.saved then 1 else 0))
  }

  /** One step keeps the cache invariant. */
  lemma ReconcileItemKeepsWellFormed(item: Option<ItemAnalysis>, cache: Cache)
    ensures cache.Some? && WellFormed(cache.value) ==>
      ReconcileItem(item, cache).cache.Some? && WellFormed(ReconcileItem(item, cache).cache.value)
  {
    if ReconcileItem(item, cache).saved && WellFormed(cache.value) {
      AddToCacheKeepsWellFormed(cache, item.value.material, item.value.productionSummary);
    }
  }

  // ---------------------------------------------------------------------------
  // Lemmas
  // ---------------------------------------------------------------------------

  /** One forward pass: item `i` is reconciled against the cache as left by the
      items before it, and nothing after it. */
  lemma {:induction false} ReconcileAt(items: seq<Option<ItemAnalysis>>, cache: Cache, i: int)
    requires 0 <= i < |items|
    ensures Reconcile(items, cache).items[i]
         == ReconcileItem(items[i], Reconcile(items[..i], cache).cache).item
    decreases |items|
  {
    var step := ReconcileItem(items[0], cache);
    if i > 0 {
      ReconcileAt(items[1..], step.cache, i - 1);
      assert items[1..][..i - 1] == items[..i][1..];
      assert items[..i][0] == items[0];
    }
  }

  /** An item whose summary is empty is filled by the pass exactly when the
      cache, as the items before it leave it, holds a summary for its
      material, and then with that summary. */
  lemma ReconcileFillsAt(items: seq<Option<ItemAnalysis>>, cache: Cache, i: int)
    requires 0 <= i < |items| && items[i].Some? && IsNullOrEmpty(items[i].value.productionSummary)
    ensures
      var cached := GetCachedSummary(Reconcile(items[..i], cache).cache, items[i].value.material);
      && (Reconcile(items, cache).items[i] != items[i] <==> !IsNullOrEmpty(cached))
      && (!IsNullOrEmpty(cached) ==>
            Reconcile(items, cache).items[i] == Some(items[i].value.(productionSummary := cached)))
  {
    ReconcileAt(items, cache, i);
  }

  /** An item that brings a summary for a material the cache, as the items
      before it leave it, does not hold yet is saved into the cache. */
  lemma ReconcileRecordsAt(items: seq<Option<ItemAnalysis>>, entries: seq<Entry>, i: int)
    requires 0 <= i < |items| && items[i].Some?
    requires !IsNullOrEmpty(items[i].value.productionSummary) && !IsNullOrEmpty(items[i].value.material)
    requires !HasName(Reconcile(items[..i], Some(entries)).cache.value, items[i].value.material.value)
    ensures Reconcile(items, Some(entries)).cache.Some?
    ensures GetCachedSummary(Reconcile(items, Some(entries)).cache, items[i].value.material)
         == items[i].value.productionSummary
  {
    var before := Reconcile(items[..i], Some(entries)).cache;
    var m := items[i].value.material;
    var summary := items[i].value.productionSummary;
    var step := ReconcileItem(items[i], before);
    assert step.cache == AddToCache(before, m, summary).cache;
    LookupAfterAdd(before.value, m.value, summary.value, m.value);
    ReconcileSplit(items, Some(entries), i);
    var after := Reconcile(items, Some(entries)).cache.value;
    assert HasName(step.cache.value, m.value) by {
      assert step.cache.value[|before.value|].materialName == m.value;
    }
    assert after == step.cache.value + after[|step.cache.value|..];
    LookupStableUnderAppend(step.cache.value, after[|step.cache.value|..], m.value);
  }

  /** The pass over all items is the pass over those before `i`, then item
      `i`, then the pass over the rest. */
  lemma {:induction false} ReconcileSplit(items: seq<Option<ItemAnalysis>>, cache: Cache, i: int)
    requires 0 <= i < |items|
    ensures Reconcile(items, cache).cache
         == Reconcile(items[i + 1..], ReconcileItem(items[i], Reconcile(items[..i], cache).cache).cache).cache
    decreases |items|
  {
    var step := ReconcileItem(items[0], cache);
    if i == 0 {
      assert items[..0] == [];
    } else {
      ReconcileSplit(items[1..], step.cache, i - 1);
      assert items[1..][..i - 1] == items[..i][1..];
      assert items[..i][0] == items[0];
      assert items[1..][i - 1] == items[i];
      assert items[1..][i..] == items[i + 1..];
    }
  }

  /** First writer wins: a summary the cache already holds for a name is what
      the name still looks up to after the pass. */
  lemma ReconcileNeverOverwrites(items: seq<Option<ItemAnalysis>>, entries: seq<Entry>, name: string)
    requires |name| > 0 && HasName(entries, name)
    ensures Reconcile(items, Some(entries)).cache.Some?
    ensures GetCachedSummary(Reconcile(items, Some(entries)).cache, Some(name))
         == GetCachedSummary(Some(entries), Some(name))
  {
    var after := Reconcile(items, Some(entries)).cache.value;
    assert after == entries + after[|entries|..];
    LookupStableUnderAppend(entries, after[|entries|..], name);
  }

  /** Every item that supplies both a material and a summary has a cache entry
      for its material. */
  predicate Covered(items: seq<Option<ItemAnalysis>>, entries: seq<Entry>) {
    forall i :: 0 <= i < |items| && items[i].Some?
      && !IsNullOrEmpty(items[i].value.productionSummary) && !IsNullOrEmpty(items[i].value.material)
      ==> HasName(entries, items[i].value.material.value)
  }

  /** A name present in a cache is present in any extension of it. */
  lemma HasNameExtends(entries: seq<Entry>, longer: seq<Entry>, name: string)
    requires entries <= longer && HasName(entries, name)
    ensures HasName(longer, name)
  {
    var j :| 0 <= j < |entries| && SameIgnoringCase(entries[j].materialName, name);
    assert longer[j] == entries[j];
  }

  /** After the pass the cache covers every supplying item. */
  lemma {:induction false} ReconcileCovers(items: seq<Option<ItemAnalysis>>, entries: seq<Entry>)
    ensures Reconcile(items, Some(entries)).cache.Some?
    ensures Covered(items, Reconcile(items, Some(entries)).cache.value)
    decreases |items|
  {
    if |items| > 0 {
      var step := ReconcileItem(items[0], Some(entries));
      var final := Reconcile(items, Some(entries)).cache.value;
      ReconcileCovers(items[1..], step.cache.value);
      forall i | 0 <= i < |items| && items[i].Some?
        && !IsNullOrEmpty(items[i].value.productionSummary) && !IsNullOrEmpty(items[i].value.material)
        ensures HasName(final, items[i].value.material.value)
      {
        if i == 0 {
          var m := items[0].value.material.value;
          if step.saved {
            assert step.cache.value[|entries|].materialName == m;
            assert HasName(step.cache.value, m);
          } else {
            assert HasName(entries, m);
          }
          HasNameExtends(step.cache.value, final, m);
        } else {
          assert items[1..][i - 1] == items[i];
        }
      }
    }
  }

  /** A pass over items the cache already covers changes nothing in it. */
  lemma {:induction false} ReconcileCoveredNoWrites(items: seq<Option<ItemAnalysis>>, entries: seq<Entry>)
    requires Covered(items, entries)
    ensures Reconcile(items, Some(entries)).cache == Some(entries)
    ensures Reconcile(items, Some(entries)).writes == 0
    decreases |items|
  {
    if |items| > 0 {
      var step := ReconcileItem(items[0], Some(entries));
      assert !step.saved;
      assert Covered(items[1..], entries) by {
        forall i | 0 <= i < |items[1..]| ensures items[1..][i] == items[i + 1] { }
      }
      ReconcileCoveredNoWrites(items[1..], entries);
    }
  }

  /** Running the pass a second time over the same items neither grows nor
      saves the cache. */
  lemma ReconcileTwiceSavesOnce(items: seq<Option<ItemAnalysis>>, entries: seq<Entry>)
    ensures Reconcile(items, Some(entries)).cache.Some?
    ensures Reconcile(items, Reconcile(items, Some(entries)).cache).cache == Reconcile(items, Some(entries)).cache
    ensures Reconcile(items, Reconcile(items, Some(entries)).cache).writes == 0
  {
    ReconcileCovers(items, entries);
    ReconcileCoveredNoWrites(items, Reconcile(items, Some(entries)).cache.value);
  }
}

=== FILE: scenarios.dfy ===
/**
 * End-to-end behaviour across the modules: how a failed or rejected
 * analysis reaches the screen, and what the reconciliation pass does on a
 * few small example results.
 */
module Scenarios {
  import opened Wrappers
  import opened Text
  import opened MaterialCache
  import opened GeminiModel
  import opened Reconciliation
  import opened GeminiClient
  import opened CameraManager

  /** A configuration that passes the pre-flight checks. */
  predicate Ready(config: Config) {
    KeyIsSet(config.apiKey) && !IsNullOrEmpty(config.modelId)
  }

  /** A request that the server rejects with status 429 is reported as a
      usage limit: the results panel shows the usage-limit text. */
  lemma RateLimitedRunShowsUsageLimit(config: Config, cache: Cache, image: seq<Bytes.byte>,
                                      promptOverride: Option<string>, error: Option<string>, body: string,
                                      decodeEnvelope: string -> Decoded<GeminiResponse>,
                                      decodeInner: string -> Decoded<PredictionResult>)
    requires Ready(config)
    ensures
      var run := AnalyzeImage(config, cache, image, promptOverride, HttpFailure(error, 429, body),
                              decodeEnvelope, decodeInner);
      && run.request.Some?
      && run.callback.OnError?
      && IsUsageLimitError(Some(run.callback.message))
      && RouteError(Some(run.callback.message)) == UsageLimitView(UsageLimitText)
      && run.cache == cache && run.writes == 0
  {
    StatusLineIsUsageLimit(error, 429, body);
  }

  /** The error text of a 429 response contains "429". */
  lemma StatusLineIsUsageLimit(error: Option<string>, code: int, body: string)
    requires code == 429
    ensures IsUsageLimitError(Some(ApiErrorMessage(error, code, body)))
  {
    ThreeDigits();
    var digits := IntToString(code);
    var before := "API Error: " + error.GetOr("") + "\nResponse Code: ";
    var after := "\nResponse: " + body + ErrorTip(code);
    assert ApiErrorMessage(error, code, body) == before + digits + after;
    CodeIsUsageLimit(before, digits, after);
  }

  /** Any text with "429" in it is a usage limit. */
  lemma CodeIsUsageLimit(before: string, digits: string, after: string)
    requires digits == "429"
    ensures IsUsageLimitError(Some(before + digits + after))
  {
    ContainsInfix(before, digits, after);
    ContainsLowerNoLetters(before + digits + after, digits);
  }

  /** The status code is written in decimal. */
  lemma ThreeDigits()
    ensures IntToString(429) == "429"
  {
    assert NatToString(4) == "4";
    assert NatToString(42) == "42";
  }

  /** A missing model id never reaches the network and sends the user back
      to the initial panel with the message. */
  lemma MissingModelIdShowsError(config: Config, cache: Cache, image: seq<Bytes.byte>,
                                 promptOverride: Option<string>, response: HttpOutcome,
                                 decodeEnvelope: string -> Decoded<GeminiResponse>,
                                 decodeInner: string -> Decoded<PredictionResult>)
    requires KeyIsSet(config.apiKey) && config.modelId.None?
    ensures
      var run := AnalyzeImage(config, cache, image, promptOverride, response, decodeEnvelope, decodeInner);
      && run.request.None?
      && run.callback == OnError(ModelIdNotSetMessage)
      && RouteError(Some(ModelIdNotSetMessage)) == InitialView(ErrorBanner + ModelIdNotSetMessage)
  {
    ModelIdMessageIsNotUsageLimit(ModelIdNotSetMessage);
  }

  /** The model-id message carries no usage-limit signal. */
  lemma ModelIdMessageIsNotUsageLimit(message: string)
    requires message == ModelIdNotSetMessage
    ensures !IsUsageLimitError(Some(message))
  {
    var alphabet := {'M', 'o', 'd', 'e', 'l', ' ', 'I', 'D', 'i', 's', 'n', 't', '.'};
    assert forall k | 0 <= k < |message| :: message[k] in alphabet;
    NotUsageLimitLacking(message, alphabet);
  }

  /** A leather jacket reported as one item without a summary block: the
      reported animal total is zero, not the item's own estimate. */
  lemma JacketTotals(jacket: ItemAnalysis)
    requires jacket.animalCount == 1.5
    ensures
      var result := PredictionResult(None, Some([Some(jacket)]));
      && result.ContainsAnimalProducts()
      && result.TotalItems() == 1
      && result.TotalEstimatedAnimalCount() == 0.0
  {
  }

  /** An item named "Leather" without a summary, as the model returns it when
      told the material is known. */
  function Unfilled(name: string, material: string): ItemAnalysis {
    ItemAnalysis(Some(name), Some(material), None, 1.0, Some("high"), None)
  }

  /** With "Leather" already cached, the pass fills the item from the cache
      and saves nothing; the lookup ignores case. */
  lemma CachedLeatherIsFilled()
    ensures
      var pass := Reconcile([Some(Unfilled("Jacket", "leather"))], Some([Entry("Leather", "Tanned hides.")]));
      && pass.items == [Some(Unfilled("Jacket", "leather").(productionSummary := Some("Tanned hides.")))]
      && pass.writes == 0
      && pass.cache == Some([Entry("Leather", "Tanned hides.")])
  {
    assert Lower("leather") == Lower("Leather");
  }

  /** A single forward pass: an item earlier in the array is not filled from
      a summary that a later item supplies, but the summary is cached. */
  lemma FillNeedsEarlierSupply()
    ensures
      var supplied := Unfilled("Scarf", "Wool").(productionSummary := Some("Shorn fleece."));
      var pass := Reconcile([Some(Unfilled("Sweater", "Wool")), Some(supplied)], Some([]));
      && pass.items == [Some(Unfilled("Sweater", "Wool")), Some(supplied)]
      && pass.cache == Some([Entry("Wool", "Shorn fleece.")])
      && pass.writes == 1
  {
    var supplied := Unfilled("Scarf", "Wool").(productionSummary := Some("Shorn fleece."));
    var empty: seq<Entry> := [];
    // The sweater finds nothing cached and is left as it is.
    assert ReconcileItem(Some(Unfilled("Sweater", "Wool")), Some(empty))
        == ItemStep(Some(Unfilled("Sweater", "Wool")), Some(empty), false);
    // The scarf's summary is new, so it is appended and saved.
    assert supplied.material == Some("Wool") && supplied.productionSummary == Some("Shorn fleece.");
    var added := AddToCache(Some(empty), supplied.material, supplied.productionSummary);
    assert added.saved;
    assert empty + [Entry("Wool", "Shorn fleece.")] == [Entry("Wool", "Shorn fleece.")];
    assert ReconcileItem(Some(supplied), Some(empty)) == ItemStep(Some(supplied), added.cache, true);
    // The pass over the remaining item.
    assert [Some(Unfilled("Sweater", "Wool")), Some(supplied)][1..] == [Some(supplied)];
    assert [Some(supplied)][1..] == [];
    assert [Some(supplied)] + [] == [Some(supplied)];
    assert Reconcile([Some(supplied)], Some(empty)) == Pass([Some(supplied)], added.cache, 1);
  }
}

=== FILE: text.dfy ===
/**
 * String helpers shared by the Gemini client, the camera controller and the
 * OpenAI controller: the .NET `string.IsNullOrEmpty`/`IsNullOrWhiteSpace`
 * tests, an ASCII model of `ToLower`/`OrdinalIgnoreCase`, ordinal substring
 * search (`string.Contains`), `string.Join`, and decimal rendering of integers
 * as done by string interpolation.
 */
module Text {
  import opened Wrappers

  /** `string.IsNullOrEmpty`. */
  predicate IsNullOrEmpty(s: Option<string>) {
    s.None? || |s.value| == 0
  }

  /** `char.IsWhiteSpace`: the Unicode space, line and paragraph separators,
      U+0009..U+000D and U+0085. */
  predicate IsWhiteSpaceChar(c: char) {
    || c == ' ' || ('\t' <= c <= '\r') || c == '\U{0085}' || c == '\U{00A0}'
    || c == '\U{1680}' || ('\U{2000}' <= c <= '\U{200A}') || c == '\U{2028}'
    || c == '\U{2029}' || c == '\U{202F}' || c == '\U{205F}' || c == '\U{3000}'
  }

  /** `string.IsNullOrWhiteSpace`. */
  predicate IsNullOrWhiteSpace(s: Option<string>) {
    s.None? || forall i :: 0 <= i < |s.value| ==> IsWhiteSpaceChar(s.value[i])
  }

  /** Lower-casing of one character; only ASCII letters are folded. */
  function LowerChar(c: char): char {
    if 'A' <= c <= 'Z' then (c as int + 32) as char else c
  }

  /** `ToLower()` restricted to the ASCII fold. */
  function Lower(s: string): string {
    seq(|s|, i requires 0 <= i < |s| => LowerChar(s[i]))
  }

  /** `a.Equals(b, StringComparison.OrdinalIgnoreCase)` under the ASCII fold. */
  predicate SameIgnoringCase(a: string, b: string) {
    Lower(a) == Lower(b)
  }

  /** `s.StartsWith(t)` with ordinal comparison. */
  predicate IsPrefix(t: string, s: string) {
    |t| <= |s| && s[..|t|] == t
  }

  /** `t` occurs in `s` starting at position `i`. */
  predicate OccursAt(s: string, t: string, i: int) {
    0 <= i && i + |t| <= |s| && s[i..i + |t|] == t
  }

  /** `s.Contains(t)`: ordinal substring search. */
  predicate Contains(s: string, t: string) {
    exists i | 0 <= i <= |s| :: OccursAt(s, t, i)
  }

  /** `string.Join(sep, parts)`. */
  function Join(sep: string, parts: seq<string>): string
    decreases |parts|
  {
    if |parts| == 0 then ""
    else if |parts| == 1 then parts[0]
    else parts[0] + sep + Join(sep, parts[1..])
  }

  /** The decimal digit for `d`. */
  function DigitChar(d: nat): char
    requires d < 10
  {
    "0123456789"[d]
  }

  /** Decimal rendering of a natural number, most significant digit first. */
  function NatToString(n: nat): string
    decreases n
  {
    if n < 10 then [DigitChar(n)] else NatToString(n / 10) + [DigitChar(n % 10)]
  }

  /** Decimal rendering of an integer, as string interpolation of a `long` does. */
  function IntToString(i: int): string {
    if i < 0 then "-" + NatToString(-i) else NatToString(i)
  }

  // ---------------------------------------------------------------------------
  // Lemmas
  // ---------------------------------------------------------------------------

  /** A string occurring in `b` also occurs in `a + b`. */
  lemma ContainsAfter(a: string, b: string, t: string)
    requires Contains(b, t)
    ensures Contains(a + b, t)
  {
    var i :| 0 <= i <= |b| && OccursAt(b, t, i);
    assert (a + b)[|a| + i..|a| + i + |t|] == b[i..i + |t|];
    assert OccursAt(a + b, t, |a| + i);
  }

  /** A string occurring in `a` also occurs in `a + b`. */
  lemma ContainsBefore(a: string, b: string, t: string)
    requires Contains(a, t)
    ensures Contains(a + b, t)
  {
    var i :| 0 <= i <= |a| && OccursAt(a, t, i);
    assert (a + b)[i..i + |t|] == a[i..i + |t|];
    assert OccursAt(a + b, t, i);
  }

  /** Every string occurs in any string that has it as an infix. */
  lemma ContainsInfix(a: string, t: string, b: string)
    ensures Contains(a + t + b, t)
  {
    assert (a + t + b)[|a|..|a| + |t|] == t;
    assert OccursAt(a + t + b, t, |a|);
  }

  /** Each character of an occurring string occurs in the text. */
  lemma ContainsHasChar(s: string, t: string, k: int)
    requires Contains(s, t)
    requires 0 <= k < |t|
    ensures t[k] in s
  {
    var i :| 0 <= i <= |s| && OccursAt(s, t, i);
    assert s[i + k] == s[i..i + |t|][k] == t[k];
  }

  /** Searching the lower-cased text for a pattern without ASCII letters
      (digits, say) gives the same answer as searching the original text. */
  lemma ContainsLowerNoLetters(s: string, t: string)
    requires forall k :: 0 <= k < |t| ==> !('a' <= t[k] <= 'z') && !('A' <= t[k] <= 'Z')
    ensures Contains(Lower(s), t) <==> Contains(s, t)
  {
    forall i | 0 <= i && i + |t| <= |s|
      ensures OccursAt(Lower(s), t, i) <==> OccursAt(s, t, i)
    {
      if OccursAt(Lower(s), t, i) {
        forall k | 0 <= k < |t| ensures s[i + k] == t[k] {
          assert Lower(s)[i..i + |t|][k] == LowerChar(s[i + k]);
        }
        assert s[i..i + |t|] == t;
      }
      if OccursAt(s, t, i) {
        forall k | 0 <= k < |t| ensures Lower(s)[i + k] == t[k] {
          assert s[i..i + |t|][k] == s[i + k];
        }
        assert Lower(s)[i..i + |t|] == t;
      }
    }
    if Contains(Lower(s), t) {
      var i :| 0 <= i <= |Lower(s)| && OccursAt(Lower(s), t, i);
      assert OccursAt(s, t, i);
    }
    if Contains(s, t) {
      var i :| 0 <= i <= |s| && OccursAt(s, t, i);
      assert OccursAt(Lower(s), t, i);
    }
  }

  /** Every joined part occurs in the joined string. */
  lemma {:induction false} JoinContainsEach(sep: string, parts: seq<string>, i: int)
    requires 0 <= i < |parts|
    ensures Contains(Join(sep, parts), parts[i])
    decreases |parts|
  {
    if |parts| == 1 {
      ContainsInfix("", parts[0], "");
      assert "" + parts[0] + "" == parts[0];
    } else {
      var rest := Join(sep, parts[1..]);
      assert Join(sep, parts) == parts[0] + sep + rest;
      if i == 0 {
        ContainsInfix("", parts[0], sep + rest);
        assert "" + parts[0] + (sep + rest) == parts[0] + sep + rest;
      } else {
        JoinContainsEach(sep, parts[1..], i - 1);
        assert parts[1..][i - 1] == parts[i];
        ContainsAfter(parts[0] + sep, rest, parts[i]);
      }
    }
  }

  /** Joining one more part appends the separator and that part, so the
      parts appear in their order. */
  lemma {:induction false} JoinSnoc(sep: string, parts: seq<string>, p: string)
    requires |parts| > 0
    ensures Join(sep, parts + [p]) == Join(sep, parts) + sep + p
    decreases |parts|
  {
    assert (parts + [p])[1..] == parts[1..] + [p];
    if |parts| == 1 {
      assert parts[1..] + [p] == [p];
    } else {
      JoinSnoc(sep, parts[1..], p);
    }
  }

  /** When every character of `s` is drawn from `alphabet`, a character
      that is no upper-case letter and lies outside `alphabet` in both cases
      does not occur in `Lower(s)`. */
  lemma LowerLacks(s: string, alphabet: set<char>, c: char)
    requires forall k | 0 <= k < |s| :: s[k] in alphabet
    requires !('A' <= c <= 'Z') && c !in alphabet
    requires 'a' <= c <= 'z' ==> (c as int - 32) as char !in alphabet
    ensures c !in Lower(s)
  {
    forall k | 0 <= k < |s| ensures Lower(s)[k] != c {
      assert s[k] in alphabet;
    }
  }

  /** Lower-casing is idempotent, so a case-insensitive test may be applied
      to already lower-cased text. */
  lemma LowerIdempotent(s: string)
    ensures Lower(Lower(s)) == Lower(s)
  {
  }
}

=== FILE: wrappers.dfy ===
/** Nullable references of the original program, as values. */
module Wrappers {

  /** `None` stands for a C# `null`; `Some(v)` for a present reference. */
  datatype Option<+T> = None | Some(value: T) {

    /** The wrapped value, or `default` when absent (the C# `??` operator). */
    function GetOr(default: T): T {
      match this
      case Some(v) => v
      case None => default
    }
  }

  /** A value, or the error that replaced it (a caught exception of the
      original program). */
  datatype Result<+T, +E> = Ok(value: T) | Err(error: E)
}
